=== FILE: README.md ===
# Reservas-Bodega: a Dafny model of the booking rules

Reservas-Bodega is the front end of a winery's guided-visit booking. It has
a booking page, an admin dashboard and a route guard. The guard wraps every
page and treats only `/login` as public, so the booking page too needs a
signed-in session. The hosted
store keeps two tables: `disponibilidad` holds the tour slots (date, time,
language, total and available seats, enabled flag), and `visitas` holds the
reservations. Almost all of the code is markup. This model covers the rules
buried in its event handlers:

- **Schedule management** (`SlotAdmin`). A capacity edit moves the available seats by the change in total. Adding a slot is refused when a loaded slot has the same time prefix and language. Seeding adds the two default slots of a day; its handler is written, but no rendered button calls it. A zero-row update or delete is read as "not found".
- **Aggregation** (`Stats`). The 30-day histogram is zero-filled and counts every visit as Spanish or else English. The day's figures include occupancy. The home view filters by a name search term, but no input ever sets that term.
- **Reservation list** (`ReservationList`). It covers the search over name, surname, hotel and room, local removal after a delete, and reloading.
- **Booking** (`Booking`). It covers the slot query's filter, the calendar grid, the slots of a day, and date selection. Submission inserts the reservation and then takes one seat off the slot, clamped at zero.
- **Route guard** (`AuthGuard`). It covers the three-branch redirect after the session check, the sign-in and sign-out listener, the loading gate around one run of the check, and the root page's redirect.

The shared modules are `Tables` (row types and the store's answers), `Languages` (the
alias sets and the ES/EN badge), `Strings` (prefix, substring, date-string order) and
`Seqs` (order-preserving filter and subsequence). The store is never modelled:
every remote answer (insert outcome with its Postgres code, affected-row
count, fetched rows or an error) is an input, and each operation is a pure
function of its inputs.

Behaviour the code has and the model follows:

- The booking page is behind the guard like every other page: without a session it redirects to `/login` (`AuthGuard.BookingPageNeedsSession`).
- The guard's session lookup is not wrapped in a `try`: if it throws, `loading` is never cleared and the route keeps its spinner (`AuthGuard.RunCheck`). The root page, by contrast, catches its lookup and goes to `/login`.
- The guard sits in the root layout and is not remounted by a navigation. A new route therefore first renders with `loading` still clear from the previous check, and its spinner comes only after. After the login redirect, the login page shows before the dark spinner meant to hide it (`AuthGuard.LoginPageShowsBeforeItsSpinner`).
- The booking page's slot query asks for `cupos_disponibles > 0`, so a sold-out slot is not listed. A day whose slots are all sold out is therefore not clickable (`Booking.DayClickableIffListedSlot`). The model does not keep sold-out slots visible.
- The query's "today" is the UTC date, while a calendar day is past when it is before local midnight. The two come from the clock separately and are independent inputs here.
- For an `Externo` guest the contact input is bound to the room field, and the row replaces that field by "N/A", so the typed contact is lost (`Booking.ExternoContactIsLost`). The form's `contacto` field is never bound to an input.
- The add-slot form sends its seat count as `parseInt` left it: a negative or NaN count reaches the insert unchecked (`SlotAdmin.AddSlotSendsUncheckedCounts`).
- The dashboard's schedule view is rendered without the seeding handler, and the home view does not take it, so the "load defaults" button does nothing. `SlotAdmin.AddDefaults` models the handler as written.
- The dashboard keeps a search term and passes its setter to the header, but the header renders no input for it. The home view's filter therefore always gets the empty term, which lists every visit; `Stats.HomeSearch` models the filter for any term.
- The booking page does not translate a unique violation on the reservation insert. It shows the store's message, or a default message when that is empty.
- Submission does not check client-side that seats remain. The seat write is `max(0, available - 1)`, so booking a sold-out slot leaves its counters unchanged (`Booking.TakeSeatKeepsSlotValid`).

## Model

| member | source | states |
|---|---|---|
| `Languages.Badge` | app/admin/AllReservationsView.tsx:9-18 | The badge shows ES exactly for "Español"/"Spanish" and EN for every other value (the admin page's badge at app/admin/page.tsx:1173-1181 is the same). |
| `Languages.AliasesDisjoint` | app/admin/page.tsx:267-268 | No language value is both a Spanish and an English alias, so the two day counters never count the same visit. |
| `Languages.EnglishBadge` | app/admin/page.tsx:1173-1181 | "Inglés" and "English" both get the EN badge. |
| `Seqs.FilterMultiplicity` | app/admin/page.tsx:267-268 | Filtering keeps every occurrence of a selected value and none of a rejected one. |
| `SlotAdmin.EditCapacityAsWritten` | app/admin/page.tsx:441-450 | As written, the edit is refused only for a numeric total that would make available negative. A NaN total passes and sends NaN for both counters. |
| `SlotAdmin.EmptyCapacityFieldIsWritten` | app/admin/page.tsx:1022-1026 | A cleared capacity field (`parseInt('')` is NaN) is sent as written but refused by the corrected edit. |
| `SlotAdmin.EditCapacity` | app/admin/page.tsx:441-450 | The edit is accepted iff the total is a number no smaller than the booked seats. An accepted edit sets the total, keeps `total - available` (the booked count), and never gives a negative available count. |
| `SlotAdmin.EditCapacityAgreesOnNumbers` | app/admin/page.tsx:441-456 | On every numeric total, the corrected edit refuses and writes exactly what the code as written does. |
| `SlotAdmin.EditCapacityKeepsSlotValid` | app/admin/page.tsx:441-456 | For a slot with `0 <= available <= total`, an edit is refused iff the new total is below the bookings. An accepted edit keeps the slot within bounds and keeps its booked count. |
| `SlotAdmin.SetCupos` | app/admin/page.tsx:453-456 | The update keyed by id rewrites both counters of every row with that id and leaves every other row untouched. |
| `SlotAdmin.CapacityEditKeepsTableValid` | app/admin/page.tsx:441-456 | Applying an accepted edit computed from the row's current counters keeps the whole table within bounds. Every row keeps its booked count, and other rows are unchanged. |
| `SlotAdmin.ReadOutcome` | app/admin/page.tsx:396-410 | A transport error is reported with its message, and a zero count is a separate not-found failure. Only a non-zero count is success; the same reading is used at lines 422-426, 459-462 and 476-477. |
| `SlotAdmin.UpdateCuposAsWritten` | app/admin/page.tsx:441-466 | As written, the handler refuses exactly a numeric total below the booked seats. Any other total is sent, NaN as NaN counters, and the store's answer is read as for any update. |
| `SlotAdmin.UpdateCupos` | app/admin/page.tsx:441-466 | Corrected (NaN refused): a refused edit sends nothing, whatever the store would answer. An accepted one sends the new total with counters that keep the booked count, reads the store's answer, and reports success iff the store touched a row. |
| `SlotAdmin.UpdateCuposDiffersOnlyOnNaN` | app/admin/page.tsx:441-466 | On a numeric total the corrected and the as-written handler refuse the same edits and send the same counters with the same report. On NaN the corrected one refuses and the as-written one sends. |
| `SlotAdmin.RowFor` | app/admin/page.tsx:318-325 | The inserted slot copies date, time and language, has total = available = the requested seats (NaN included), and is enabled. |
| `SlotAdmin.HasClash` | app/admin/page.tsx:304 | The front-to-back scan finds a clash iff some loaded slot's time starts with the new time and has the same language. |
| `SlotAdmin.AddSlot` | app/admin/page.tsx:296-346 | Demo mode sends nothing. A clash is refused locally and sends nothing. Otherwise exactly one fully available, enabled row is sent, with the seat count as typed. The result is Created iff the insert succeeded and Duplicate iff the store answered 23505. |
| `SlotAdmin.AddSlotTwiceConflicts` | app/admin/page.tsx:304-325 | Once a created slot is loaded, the same draft is refused as a clash, whatever the store kept for the counters and even if it reads the time back with seconds. A created slot with a numeric seat count is within bounds iff that count is not negative. |
| `SlotAdmin.AddSlotSendsUncheckedCounts` | app/admin/page.tsx:317-325 | A negative seat count and a NaN one are both sent to the insert, and an accepted insert is reported as created. |
| `SlotAdmin.Seed` | app/admin/page.tsx:361-377 | The seeding loop writes no more rows than there are defaults. |
| `SlotAdmin.SeedProperties` | app/admin/page.tsx:361-377 | Every written row comes from a default not already loaded, and the store accepted it. Seeding stops iff an attempted default gets an error other than 23505. Without such an error, it writes exactly the rows of the accepted defaults, in order. |
| `SlotAdmin.AddDefaults` | app/admin/page.tsx:348-388 | Without a configured store nothing is sent. The loop writes exactly the rows of `Seed` and reports an error iff seeding stopped. Without an error it reports "added" with the number of written rows when there are some, and "already present" otherwise. Every written default has 15 of 15 seats and is enabled. |
| `SlotAdmin.SeedSkipsLoadedDefaults` | app/admin/page.tsx:361-364 | When both defaults are already loaded, seeding writes nothing and reports no error. |
| `Stats.Tally` | app/admin/page.tsx:188-206 | The per-day map has an entry iff some visit falls on that day. Each entry counts that day's visits and its Spanish visits, with `es + en = total`. |
| `Stats.TallyTotals` | app/admin/page.tsx:189-205 | The language totals satisfy `es + en = all = number of visits`, with `es` the number of Spanish-alias visits. |
| `Stats.Analyze` | app/admin/page.tsx:168-219 | The history has one entry per window day, in order. Each entry has that day's visit count, zero when there were none, and `es + en = total`. The totals satisfy `es + en = all`. A failed query counts nothing. |
| `Stats.HistoryAccountsForEveryVisit` | app/admin/page.tsx:177-218 | When every fetched visit falls inside a window of distinct days, the histogram bars add up to the total number of visits. |
| `Stats.BookedWithinCapacity` | app/admin/page.tsx:269-270 | On slots with `0 <= available <= total`, the booked sum is between 0 and the capacity sum. |
| `Stats.Occupancy` | app/admin/page.tsx:271 | Occupancy is 0 without capacity. Otherwise it is the whole percentage nearest to `booked/cap`, with halves rounding up. |
| `Stats.OccupancyIsPercentage` | app/admin/page.tsx:271 | A booked share between nothing and the whole capacity rounds to a percentage in 0..100. |
| `Stats.SpanishFilterCounts` | app/admin/page.tsx:268 | Filtering the day's visits on a Spanish alias selects exactly as many visits as the reference count of Spanish visits. |
| `Stats.EnglishFilterCounts` | app/admin/page.tsx:267 | Filtering the day's visits on an English alias selects exactly as many visits as the reference count of English visits. |
| `Stats.ComputeDailyStats` | app/admin/page.tsx:265-273 | `total` is the number of visits. `en` and `es` are the numbers of English- and Spanish-alias visits, and `en + es <= total`. Occupancy is computed from the slot sums and lies in 0..100 when every slot is within bounds. |
| `Stats.HomeSearch` | app/admin/page.tsx:820-823 | The home table keeps a visit iff the search is empty or the lowered term occurs in the lowered first or last name. It keeps loaded order, and an empty search lists everything. |
| `ReservationList.Search` | app/admin/AllReservationsView.tsx:46-51 | A row is kept iff the lowered term occurs in the lowered name, surname or hotel, or the raw term occurs in the room number. Loaded order is kept, and an empty search keeps every row. |
| `ReservationList.RoomNumberSearchIsExact` | app/admin/AllReservationsView.tsx:49 | Searching for a row's exact room number always selects it, whatever the lowering does. |
| `ReservationList.RemoveById` | app/admin/AllReservationsView.tsx:128 | Local removal drops every row with the id and keeps all others in order. Nothing changes when no row has the id. |
| `ReservationList.Reload` | app/admin/AllReservationsView.tsx:36-43 | Returned data (even empty) replaces the list, and an error keeps the previous list. |
| `ReservationList.DeleteClickAsWritten` | app/admin/AllReservationsView.tsx:124-129 | As written, the delete button removes the row locally at once, whatever the answer to the confirmation dialog. Every other row stays, in order. |
| `ReservationList.CancelledDeleteStillHidesRow` | app/admin/AllReservationsView.tsx:124-129 | As written, cancelling the dialog on a one-row list empties the list although the store deletes nothing. |
| `ReservationList.DeleteClick` | app/admin/AllReservationsView.tsx:124-129 | Corrected: the row leaves the list exactly when the store deleted it. A cancel, an error or a zero count leaves the list unchanged, and other rows always stay in order. |
| `ReservationList.DeleteClickAgreesOnConfirmedDelete` | app/admin/page.tsx:415-438 | After a confirmed delete that touched a row, the corrected and the as-written list agree. |
| `Booking.FetchFechas` | app/reservas/page.tsx:54-82 | On success the page holds exactly the enabled, dated-today-or-later slots with a seat left, in table order. On failure it keeps its slots and shows the load error. |
| `Booking.SlotsForDate` | app/reservas/page.tsx:156-159 | The result holds exactly the loaded slots whose date string equals the day, in loaded order. |
| `Booking.HasAvailability` | app/reservas/page.tsx:161-163 | A day has availability iff some loaded slot falls on it. |
| `Booking.DayClickable` | app/reservas/page.tsx:249-255 | A day's button is enabled iff some loaded slot falls on it and the day is not past. |
| `Booking.DayClickableIffListedSlot` | app/reservas/page.tsx:64-75 | After loading, a day is clickable iff it is not past and the table has an enabled slot on it, dated today or later, with a seat left. |
| `Booking.CalendarDays` | app/reservas/page.tsx:144-154 | The grid is `startWeekday` empty cells then days 1..n, so its length is `startWeekday + n` and day d sits at index `startWeekday + d - 1`. |
| `Booking.ClickDate` | app/reservas/page.tsx:256-259 | Clicking a day selects it and clears the chosen slot. The error and the success flag are unchanged. |
| `Booking.BookAnother` | app/reservas/page.tsx:179-183 | "Book another" leaves the confirmation and clears date and slot. |
| `Booking.ReservationFor` | app/reservas/page.tsx:100-110 | Date, time and language come from the slot and names and hotel from the form. An Externo guest gets room "N/A". Empty comments become NULL, and the status is confirmed. |
| `Booking.PreferenceIsNotStored` | app/reservas/page.tsx:40-48 | The form's language preference and contact field never change the row. The row's badge is the slot's. |
| `Booking.ExternoContactIsLost` | app/reservas/page.tsx:106 | For an Externo guest, whatever was typed in the contact input (bound to the room field at lines 376-378) leaves the row unchanged, with room "N/A". |
| `Booking.TakeSeat` | app/reservas/page.tsx:121 | The new count is never negative and at most one below the old one. It is exactly one below when a seat was left, and zero otherwise. |
| `Booking.TakeSeatKeepsSlotValid` | app/reservas/page.tsx:114-122 | Taking a seat keeps a slot within bounds. It books exactly one more seat when one was left and leaves a sold-out slot unchanged. |
| `Booking.Submit` | app/reservas/page.tsx:88-138 | With no slot chosen, only the error is set and nothing is sent. Otherwise the reservation is sent. The seat write is sent iff the insert succeeded, and it carries the clamped count. Success is shown, and the slot list reloaded, iff the insert succeeded. A failed insert shows its message or the default. |
| `Booking.SeatWriteFailureIsSilent` | app/reservas/page.tsx:124-130 | A failed seat write leaves the guest on the same confirmation as a successful one. |
| `Booking.SubmitAfterDateClickSendsNothing` | app/reservas/page.tsx:90-93 | Submitting right after a date click sends nothing and shows the no-slot error. |
| `Booking.LastSeatScenario` | app/reservas/page.tsx:99-131 | Booking the last seat of a Spanish 15-seat slot writes a Spanish reservation and leaves 0 seats. The reload that follows no longer lists the slot. |
| `AuthGuard.IsPublicRoute` | components/AuthGuard.tsx:9-18 | A route is public iff its path starts with `/login`. |
| `AuthGuard.ReturnTarget` | components/AuthGuard.tsx:33-34 | A non-empty return address wins. An absent or empty one falls back to `/dashboard`. |
| `AuthGuard.CurrentLocation` | components/AuthGuard.tsx:27 | The location to return to is the path, with `?query` appended only when the query is not empty. |
| `AuthGuard.CheckAuth` | components/AuthGuard.tsx:20-43 | Exactly one of four outcomes. No session on a protected route goes to `/login?returnUrl=` plus the encoded location. A session on a public route goes to the return address or the dashboard. A session on `/` goes to the dashboard. Everything else stays. |
| `AuthGuard.LoginRedirectSettles` | components/AuthGuard.tsx:25-28 | The login redirect leads to a public path, where the guard does not redirect a visitor without a session again, with the decoded return address it carries. |
| `AuthGuard.DashboardSettles` | components/AuthGuard.tsx:31-40 | With a session, the dashboard is left alone, so the dashboard redirects do not loop. |
| `AuthGuard.RootWithoutSession` | components/AuthGuard.tsx:25-28 | Without a session the root page goes to the login page, carrying `/` as the return address. |
| `AuthGuard.BookingPageNeedsSession` | components/AuthGuard.tsx:9-28 | Without a session the booking page `/reservas` is redirected to `/login` with itself as the return address; app/layout.tsx:26 puts every page under the guard. |
| `AuthGuard.OnAuthEvent` | components/AuthGuard.tsx:48-56 | Sign-out always goes to `/login`. Sign-in redirects iff the path is exactly `/login`, and then to the return address or the dashboard. Other events do nothing. |
| `AuthGuard.SignInListenerIsNarrower` | components/AuthGuard.tsx:52 | On `/login/`, the guard's prefix test treats the path as public but the listener's exact test ignores sign-in. |
| `AuthGuard.Render` | components/AuthGuard.tsx:61-79 | The page is rendered iff `loading` is clear. While it is set, a dark spinner shows on public routes and a light one elsewhere. |
| `AuthGuard.RunCheck` | components/AuthGuard.tsx:15-45 | A route is first rendered with the state the previous run left. While the lookup is pending the route shows its spinner, dark on public routes and light elsewhere. A lookup that answers gives the `CheckAuth` decision, and afterwards the page renders on every branch. A lookup that throws gives no decision and leaves the spinner showing, since nothing catches it before `setLoading(false)`. |
| `AuthGuard.MountedHidesPage` | components/AuthGuard.tsx:15 | A freshly mounted guard shows no page on any route until its check settles. |
| `AuthGuard.NextRouteRendersBeforeCheck` | components/AuthGuard.tsx:20-22 | After a settled run, the next route renders its page before its own check sets `loading`, whatever that check decides. |
| `AuthGuard.LoginPageShowsBeforeItsSpinner` | components/AuthGuard.tsx:70-79 | After the login redirect, `/login` first renders the login page and only then the dark spinner meant to prevent that flash. |
| `AuthGuard.ProtectedPageRendersWhileRedirecting` | components/AuthGuard.tsx:26-42 | Without a session on a protected route, the check decides to redirect to login and still clears `loading`, so the page renders during the navigation. |
| `AuthGuard.RootRedirect` | app/page.tsx:13-28 | The root page goes to the dashboard iff a session was found. No session or a failed lookup goes to `/login`. |

## Left out

- The hosted store and its client (lib/supabase.ts and every `supabase.*` call) are left out. Each answer is an input: insert outcome, error message, affected-row count, or fetched rows.
- Result ordering (`order by fecha, hora, idioma`) is done by the store, so the model keeps the order of the rows it is given.
- The slot-provisioning RPC `ensure_future_availability` is fire-and-forget; its failure is only logged.
- Concurrency is left out. The model has no interleaving of the insert and the seat write, no stale `selectedSlot` copy, and no last-write-wins between admins. Booking is a sequential two-step transition.
- Realtime channels and the refetch they trigger are left out, as are the two-second sync indicator (`setTimeout`), toasts, modals other than the delete confirmation's answer, all markup and styling, and the unused mock-data generator.
- The date library (date-fns) is left out. Date strings, the analytics window, `startWeekday` and `daysInMonth` are inputs, and the admin header's Monday-first calendar is not modelled.
- `toLowerCase` and `encodeURIComponent` are parameters of type `string -> string`. No Unicode case mapping or percent-encoding is modelled.
- The floating-point bar widths and heights of the charts are left out.
- The login, dashboard, unauthorized and error pages only navigate or sign in and out, so they are left out. The code has no admin role check.
- `parseInt` itself is left out. The capacity handler and the add-slot form receive its result, an integer or NaN.
- `Stats.Occupancy`: rounding is exact over the rationals. The floating-point error of `booked / cap * 100` before `Math.round` is not modelled.
- `AuthGuard.CheckAuth`: the path is a string. The null that `usePathname` may return is not modelled.
- `SlotAdmin.AddDefaults`: the "configured" flag stands for the environment-variable check. The demo-mode flag of `SlotAdmin.AddSlot` does the same for its own check.

## Findings

| source | as written | input that shows it | evidently intended | confidence | as-written member | corrected member |
|---|---|---|---|---|---|---|
| app/admin/page.tsx:441-450 | The guard `newAvailable < 0` is false for NaN, so a non-numeric total passes and the update is sent with NaN for both counters. | The admin clears the capacity field and leaves it. `parseInt('')` is NaN (app/admin/page.tsx:1026), and the handler is called with current total 15 and available 10. | A total that is not a number is refused like one below the bookings. | not executed; high that the guard lets NaN through, unknown what the store then stores. The handlers built on the two edits are `SlotAdmin.UpdateCuposAsWritten` and `SlotAdmin.UpdateCupos` | `SlotAdmin.EditCapacityAsWritten` (shown by `SlotAdmin.EmptyCapacityFieldIsWritten`) | `SlotAdmin.EditCapacity` |
| app/admin/AllReservationsView.tsx:124-129 | The delete button opens the confirmation dialog and, in the same click, filters the row out of the local list. | The admin clicks delete on a row and then cancels the dialog. The row disappears although nothing was deleted. | The row leaves the list only once the store has deleted it. | not executed; medium (the comment calls the removal optimistic, but nothing restores the row on cancel or failure) | `ReservationList.DeleteClickAsWritten` (shown by `ReservationList.CancelledDeleteStillHidesRow`) | `ReservationList.DeleteClick` |

=== FILE: auth_guard.dfy ===
/**
 The route guard wrapped around every page: the redirect decided after the
 session check, the redirects driven by sign-in and sign-out events, and
 what is rendered while the check runs. The session itself, the router and
 URL encoding are inputs.
 */
module AuthGuard {
  import opened Tables
  import opened Strings

  /** Route prefixes that need no session. */
  const PublicRoutes: seq<string> := ["/login"]

  const LoginPath: string := "/login"
  const DashboardPath: string := "/dashboard"
  const RootPath: string := "/"

  /** `PUBLIC_ROUTES.some(route => pathname.startsWith(route))`. */
  function IsPublicRoute(pathname: string): (b: bool)
    ensures b <==> StartsWith(pathname, LoginPath)
  {
    var b := exists i :: 0 <= i < |PublicRoutes| && StartsWith(pathname, PublicRoutes[i]);
    assert PublicRoutes[0] == LoginPath && |PublicRoutes| == 1;
    assert StartsWith(pathname, PublicRoutes[0]) ==> b;
    b
  }

  /** Which branch of `checkAuth` fired. */
  datatype Decision =
    | LoginWithReturn(target: string)   // no session on a protected route
    | LeaveLogin(target: string)        // a session on a public route
    | RootToDashboard                   // a session on the root
    | Stay                              // no redirect

  /** `returnUrl || '/dashboard'`: an absent or empty return address falls back to the dashboard. */
  function ReturnTarget(returnUrl: Option<string>): (t: string)
    ensures returnUrl.Some? && returnUrl.value != "" ==> t == returnUrl.value
    ensures returnUrl.None? || returnUrl.value == "" ==> t == DashboardPath
  {
    match returnUrl
    case Some(u) => if u != "" then u else DashboardPath
    case None => DashboardPath
  }

  /** The address to come back to: the path, plus `?query` when the query is not empty. */
  function CurrentLocation(pathname: string, query: string): (loc: string)
    ensures StartsWith(loc, pathname)
    ensures query == "" ==> loc == pathname
    ensures query != "" ==> loc[|pathname|..] == "?" + query
  {
    pathname + (if query != "" then "?" + query else "")
  }

  /**
   `checkAuth`. The branches are tried in order: no session on a protected
   route sends to the login page carrying the encoded current location; a
   session on a public route leaves it for the return address or the
   dashboard; a session on the root goes to the dashboard; anything else
   stays. `encode` stands for `encodeURIComponent`.
   */
  function CheckAuth(hasSession: bool, pathname: string, query: string, returnUrl: Option<string>,
                     encode: string -> string): (d: Decision)
    ensures d.LoginWithReturn? <==> !hasSession && !IsPublicRoute(pathname)
    ensures d.LoginWithReturn? ==> d.target == "/login?returnUrl=" + encode(CurrentLocation(pathname, query))
    ensures d.LeaveLogin? <==> hasSession && IsPublicRoute(pathname)
    ensures d.LeaveLogin? ==> d.target == ReturnTarget(returnUrl)
    ensures d.RootToDashboard? <==> hasSession && pathname == RootPath
    ensures d.Stay? <==> (!hasSession && IsPublicRoute(pathname)) || (hasSession && !IsPublicRoute(pathname) && pathname != RootPath)
  {
    var isPublic := IsPublicRoute(pathname);
    if !hasSession && !isPublic then
      LoginWithReturn("/login?returnUrl=" + encode(CurrentLocation(pathname, query)))
    else if hasSession && isPublic then
      LeaveLogin(ReturnTarget(returnUrl))
    else if hasSession && pathname == RootPath then
      RootToDashboard
    else
      Stay
  }

  /** The path part of a redirect target, up to the first `?`. */
  function PathOf(target: string): (p: string)
    ensures StartsWith(target, p)
    ensures forall i :: 0 <= i < |p| ==> p[i] != '?'
  {
    if |target| == 0 || target[0] == '?' then ""
    else [target[0]] + PathOf(target[1..])
  }

  /**
   Following the login redirect settles: without a session, the login page it
   leads to is public, so the guard does not redirect again. There the return
   address reads back decoded, as the location it was made from.
   */
  lemma LoginRedirectSettles(pathname: string, query: string, returnUrl: Option<string>,
                             encode: string -> string, query': string)
    requires CheckAuth(false, pathname, query, returnUrl, encode).LoginWithReturn?
    ensures var target := CheckAuth(false, pathname, query, returnUrl, encode).target;
            PathOf(target) == LoginPath &&
            CheckAuth(false, PathOf(target), query', Some(CurrentLocation(pathname, query)), encode) == Stay
  {
    var target := CheckAuth(false, pathname, query, returnUrl, encode).target;
    var rest := "?returnUrl=" + encode(CurrentLocation(pathname, query));
    assert target == LoginPath + rest;
    PathOfStopsAtQuery(LoginPath, rest);
  }

  lemma {:induction false} PathOfStopsAtQuery(path: string, rest: string)
    requires forall i :: 0 <= i < |path| ==> path[i] != '?'
    requires |rest| > 0 && rest[0] == '?'
    ensures PathOf(path + rest) == path
  {
    if |path| > 0 {
      assert (path + rest)[1..] == path[1..] + rest;
      PathOfStopsAtQuery(path[1..], rest);
    }
  }

  /** With a session, the dashboard redirect settles too: the dashboard is protected and is not the root. */
  lemma DashboardSettles(query: string, returnUrl: Option<string>, encode: string -> string)
    ensures CheckAuth(true, DashboardPath, query, returnUrl, encode) == Stay
  {
    assert !StartsWith(DashboardPath, LoginPath) by {
      assert DashboardPath[1] != LoginPath[1];
    }
  }

  /** With no session even the root is protected: it goes to the login page with `/` to come back to. */
  lemma RootWithoutSession(encode: string -> string)
    ensures CheckAuth(false, RootPath, "", None, encode) == LoginWithReturn("/login?returnUrl=" + encode(RootPath))
  {
  }

  /**
   The guard wraps every page and only the login page is public, so the
   booking page too sends a visitor without a session to the login page.
   */
  lemma BookingPageNeedsSession(encode: string -> string)
    ensures CheckAuth(false, "/reservas", "", None, encode) == LoginWithReturn("/login?returnUrl=" + encode("/reservas"))
  {
    assert !StartsWith("/reservas", LoginPath) by {
      assert "/reservas"[1] != LoginPath[1];
    }
  }

  // ---------------------------------------------------------------------------
  // Auth events
  // ---------------------------------------------------------------------------

  /** Events of the session provider. */
  datatype AuthEvent = SignedIn | SignedOut | OtherEvent(name: string)

  /**
   The event listener: signing out always goes to the login page; signing in
   while exactly on `/login` goes to the return address or the dashboard;
   every other event changes nothing.
   */
  function OnAuthEvent(event: AuthEvent, pathname: string, returnUrl: Option<string>): (target: Option<string>)
    ensures event == SignedOut ==> target == Some(LoginPath)
    ensures event == SignedIn ==> (target.Some? <==> pathname == LoginPath)
    ensures event == SignedIn && pathname == LoginPath ==> target == Some(ReturnTarget(returnUrl))
    ensures event.OtherEvent? ==> target.None?
  {
    match event
    case SignedOut => Some(LoginPath)
    case SignedIn => if pathname == LoginPath then Some(ReturnTarget(returnUrl)) else None
    case OtherEvent(_) => None
  }

  /**
   The listener matches the login page exactly, whereas the guard matches it
   as a prefix: signing in on `/login/` redirects through the guard's check
   but not through the listener.
   */
  lemma SignInListenerIsNarrower(returnUrl: Option<string>, encode: string -> string)
    ensures IsPublicRoute("/login/")
    ensures CheckAuth(true, "/login/", "", returnUrl, encode).LeaveLogin?
    ensures OnAuthEvent(SignedIn, "/login/", returnUrl).None?
  {
  }

  // ---------------------------------------------------------------------------
  // Rendering
  // ---------------------------------------------------------------------------

  /** What the guard renders: a light or a dark spinner, or the page itself. */
  datatype View = LightSpinner | DarkSpinner | Children

  /** The guard's one piece of state: whether the session check is still running. */
  datatype GuardState = GuardState(loading: bool)

  /** How a session lookup ended: with a session, without one, or by throwing. */
  datatype SessionLookup = HasSession | NoSession | LookupThrew

  /** A freshly mounted guard starts with the check running. */
  const Mounted := GuardState(true)

  /**
   The page is rendered exactly when `loading` is clear; while it is set a
   spinner shows, dark on the login page and light elsewhere.
   */
  function Render(g: GuardState, pathname: string): (v: View)
    ensures v == Children <==> !g.loading
    ensures v == DarkSpinner <==> g.loading && IsPublicRoute(pathname)
    ensures v == LightSpinner <==> g.loading && !IsPublicRoute(pathname)
  {
    if g.loading && !IsPublicRoute(pathname) then LightSpinner
    else if g.loading && IsPublicRoute(pathname) then DarkSpinner
    else Children
  }

  /**
   A run of `checkAuth` on a route: the state the route is first rendered
   with, the state while the session lookup is pending, the decision (none
   when the lookup threw), and the state after.
   */
  datatype CheckRun = CheckRun(entry: GuardState, pending: GuardState, decision: Option<Decision>, settled: GuardState)

  /**
   One run of the effect for a route. The guard lives in the root layout, so
   a navigation does not remount it: the new route is first rendered with the
   state `prev` the previous run left, and only then does the effect set
   `loading`, look the session up, take the decision, and clear `loading` on
   every branch, redirects included. Nothing catches a lookup that throws:
   the run stops there, with no decision and `loading` still set.
   */
  function RunCheck(prev: GuardState, lookup: SessionLookup, pathname: string, query: string,
                    returnUrl: Option<string>, encode: string -> string): (run: CheckRun)
    ensures run.entry == prev
    ensures lookup != LookupThrew ==>
              run.decision == Some(CheckAuth(lookup == HasSession, pathname, query, returnUrl, encode))
    ensures lookup == LookupThrew ==> run.decision.None? && run.settled == run.pending
    ensures Render(run.entry, pathname) == Children <==> !prev.loading
    ensures Render(run.pending, pathname) == (if IsPublicRoute(pathname) then DarkSpinner else LightSpinner)
    ensures Render(run.settled, pathname) == Children <==> lookup != LookupThrew
  {
    if lookup == LookupThrew then CheckRun(prev, GuardState(true), None, GuardState(true))
    else
      CheckRun(prev, GuardState(true), Some(CheckAuth(lookup == HasSession, pathname, query, returnUrl, encode)),
               GuardState(false))
  }

  /** Before its first check has settled, a mounted guard shows no page, on any route. */
  lemma MountedHidesPage(pathname: string)
    ensures Render(Mounted, pathname) != Children
  {
  }

  /**
   `loading` is cleared after `router.push` too: a protected page visited
   without a session is rendered while the navigation to the login page is
   under way.
   */
  lemma ProtectedPageRendersWhileRedirecting(pathname: string, query: string, returnUrl: Option<string>,
                                             encode: string -> string)
    requires !IsPublicRoute(pathname)
    ensures var run := RunCheck(Mounted, NoSession, pathname, query, returnUrl, encode);
            run.decision.Some? && run.decision.value.LoginWithReturn? && Render(run.settled, pathname) == Children
  {
  }

  /**
   After a run that settled, the next route renders its page before its own
   check starts, whatever that check will decide: the spinner only follows.
   */
  lemma NextRouteRendersBeforeCheck(run: CheckRun, lookup: SessionLookup, pathname: string, query: string,
                                    returnUrl: Option<string>, encode: string -> string)
    requires !run.settled.loading
    ensures var next := RunCheck(run.settled, lookup, pathname, query, returnUrl, encode);
            Render(next.entry, pathname) == Children && Render(next.pending, pathname) != Children
  {
  }

  /**
   The login redirect, followed: a protected route visited without a session
   sends the guard to `/login`, which renders the login page at once and only
   then shows the dark spinner meant to hide it.
   */
  lemma LoginPageShowsBeforeItsSpinner(pathname: string, query: string, returnUrl: Option<string>,
                                       encode: string -> string, query': string)
    requires !IsPublicRoute(pathname)
    ensures var run := RunCheck(Mounted, NoSession, pathname, query, returnUrl, encode);
            var login := PathOf(run.decision.value.target);
            var next := RunCheck(run.settled, NoSession, login, query', Some(CurrentLocation(pathname, query)), encode);
            login == LoginPath && Render(next.entry, login) == Children && Render(next.pending, login) == DarkSpinner
  {
    LoginRedirectSettles(pathname, query, returnUrl, encode, query');
    assert IsPublicRoute(LoginPath) by {
      assert StartsWith(LoginPath, LoginPath);
    }
  }

  // ---------------------------------------------------------------------------
  // The root page
  // ---------------------------------------------------------------------------

  /** The root page: a session goes to the dashboard; no session, or a failed lookup, to the login page. */
  function RootRedirect(lookup: SessionLookup): (target: string)
    ensures target == DashboardPath <==> lookup == HasSession
    ensures target == LoginPath <==> lookup != HasSession
  {
    if lookup == HasSession then DashboardPath else LoginPath
  }
}

=== FILE: booking.dfy ===
/**
 The booking page (behind the route guard like every page): which slots it
 lists, the calendar grid, the slots of a chosen day, and the two-step
 submission (insert the reservation, then take one seat off the slot). The
 store's answers are inputs; the two steps are modelled one after the other,
 without interleaving.
 */
module Booking {
  import opened Tables
  import opened Strings
  import opened Seqs
  import opened Languages

  // ---------------------------------------------------------------------------
  // Loading the bookable slots
  // ---------------------------------------------------------------------------

  /** The query's filter: enabled, dated today or later, with at least one seat left. */
  predicate Listed(s: Slot, today: string) {
    s.habilitado && LexLe(today, s.fecha) && s.cuposDisponibles > 0
  }

  /** Message shown when the slot query fails. */
  const LoadError: string := "No se pudieron cargar las fechas disponibles."

  /** The slots the page holds after loading, and the error message it shows. */
  datatype Loaded = Loaded(fechas: seq<Slot>, error: string)

  /**
   `fetchFechas`: `table` is the store's `disponibilidad`, or None when the
   query fails. On success the page holds exactly the listed rows, in table
   order; on failure it keeps what it had and shows the load error. The page
   leaves its error alone on success; that error is always empty there (it
   starts empty and a submission clears it before anything else), so the
   model's empty message is the same value.
   */
  function FetchFechas(prev: seq<Slot>, table: Option<seq<Slot>>, today: string): (r: Loaded)
    ensures table.None? ==> r == Loaded(prev, LoadError)
    ensures table.Some? ==> IsSubsequence(r.fechas, table.value)
    ensures table.Some? ==> forall i :: 0 <= i < |r.fechas| ==> Listed(r.fechas[i], today)
    ensures table.Some? ==> forall i :: 0 <= i < |table.value| && Listed(table.value[i], today) ==> table.value[i] in r.fechas
  {
    match table
    case None => Loaded(prev, LoadError)
    case Some(rows) => Loaded(Filter(rows, (s: Slot) => Listed(s, today)), "")
  }

  // ---------------------------------------------------------------------------
  // Days and their slots
  // ---------------------------------------------------------------------------

  /** `getSlotsForDate`: the loaded slots of one date string, in loaded order. */
  function SlotsForDate(fechas: seq<Slot>, date: string): (r: seq<Slot>)
    ensures IsSubsequence(r, fechas)
    ensures forall i :: 0 <= i < |r| ==> r[i].fecha == date
    ensures forall i :: 0 <= i < |fechas| && fechas[i].fecha == date ==> fechas[i] in r
  {
    Filter(fechas, (s: Slot) => s.fecha == date)
  }

  /** `hasAvailability`: some loaded slot falls on the date. */
  function HasAvailability(fechas: seq<Slot>, date: string): (b: bool)
    ensures b <==> exists i :: 0 <= i < |fechas| && fechas[i].fecha == date
  {
    var r := SlotsForDate(fechas, date);
    assert |r| > 0 ==> r[0] in fechas;
    |r| > 0
  }

  /**
   A calendar day's button is enabled when the day has availability and is
   not before the start of the browser's local today (`isPast`, an input here
   because it reads the clock).
   */
  function DayClickable(fechas: seq<Slot>, date: string, isPast: bool): (b: bool)
    ensures b <==> !isPast && exists i :: 0 <= i < |fechas| && fechas[i].fecha == date
  {
    HasAvailability(fechas, date) && !isPast
  }

  /**
   A calendar day is clickable exactly when it is not past and the store holds
   a listed slot on it. In particular a day whose slots are all sold out or
   disabled, or dated before the query's `today`, is not clickable: those
   slots are filtered by the query. `today` (a UTC date) and `isPast` (local
   midnight) come from the clock separately, so the two may disagree.
   */
  lemma DayClickableIffListedSlot(prev: seq<Slot>, table: seq<Slot>, today: string, date: string, isPast: bool)
    ensures DayClickable(FetchFechas(prev, Some(table), today).fechas, date, isPast)
            <==> !isPast && exists i :: 0 <= i < |table| && table[i].fecha == date && Listed(table[i], today)
  {
  }

  /** A weekday number as `Date.getDay` returns it: Sunday is 0, Saturday 6. */
  type Weekday = w: nat | w < 7

  /**
   `buildCalendarDays` of the booking page: `startWeekday` empty cells (Sunday
   is 0), then the days 1..`daysInMonth`. In a seven-column grid day `d` falls
   in column `(startWeekday + d - 1) % 7`, its weekday.
   */
  method CalendarDays(startWeekday: Weekday, daysInMonth: nat) returns (cells: seq<Option<nat>>)
    ensures |cells| == startWeekday + daysInMonth
    ensures forall i :: 0 <= i < startWeekday ==> cells[i] == None
    ensures forall d :: 1 <= d <= daysInMonth ==> cells[startWeekday + d - 1] == Some(d)
  {
    cells := [];
    while |cells| < startWeekday
      invariant |cells| <= startWeekday
      invariant forall i :: 0 <= i < |cells| ==> cells[i] == None
    {
      cells := cells + [None];
    }
    var d := 1;
    while d <= daysInMonth
      invariant 1 <= d <= daysInMonth + 1
      invariant |cells| == startWeekday + d - 1
      invariant forall i :: 0 <= i < startWeekday ==> cells[i] == None
      invariant forall e :: 1 <= e < d ==> cells[startWeekday + e - 1] == Some(e)
    {
      cells := cells + [Some(d)];
      d := d + 1;
    }
  }

  // ---------------------------------------------------------------------------
  // Page state
  // ---------------------------------------------------------------------------

  /** The booking form. `idioma` is only a contact preference; `contacto` is never sent. */
  datatype BookingForm = BookingForm(
    nombre: string,
    apellido: string,
    hotel: string,
    habitacion: string,
    contacto: string,
    idioma: string,
    comentarios: string)

  /** The page's selection and status. */
  datatype Page = Page(selectedDate: Option<string>, selectedSlot: Option<Slot>, error: string, success: bool)

  /** Clicking a calendar day selects it and drops any slot chosen on another day. */
  function ClickDate(p: Page, date: string): (p': Page)
    ensures p'.selectedDate == Some(date) && p'.selectedSlot.None?
    ensures p'.error == p.error && p'.success == p.success
  {
    p.(selectedDate := Some(date), selectedSlot := None)
  }

  /** "Realizar otra reserva": leave the confirmation and clear both selections. */
  function BookAnother(p: Page): (p': Page)
    ensures !p'.success && p'.selectedDate.None? && p'.selectedSlot.None?
    ensures p'.error == p.error
  {
    p.(success := false, selectedSlot := None, selectedDate := None)
  }

  // ---------------------------------------------------------------------------
  // Submission
  // ---------------------------------------------------------------------------

  /** The hotel value of a guest who is not staying at a partner hotel. */
  const Externo: string := "Externo"

  /** The `visitas` row the page inserts (the store adds id and creation time). */
  datatype NewVisit = NewVisit(
    fecha: string,
    hora: string,
    nombre: string,
    apellido: string,
    hotel: string,
    numeroHabitacion: string,
    idioma: string,
    comentarios: Option<string>,
    estado: Estado)

  /**
   The reservation for a chosen slot: date, time and language come from the
   slot, the guest's name and hotel from the form; an `Externo` guest gets
   room "N/A"; empty comments are stored as NULL; the status is confirmed.
   */
  function ReservationFor(slot: Slot, form: BookingForm): (v: NewVisit)
    ensures v.fecha == slot.fecha && v.hora == slot.hora && v.idioma == slot.idioma
    ensures v.nombre == form.nombre && v.apellido == form.apellido && v.hotel == form.hotel
    ensures v.numeroHabitacion == (if form.hotel == Externo then "N/A" else form.habitacion)
    ensures v.comentarios.None? <==> form.comentarios == ""
    ensures v.comentarios.Some? ==> v.comentarios.value == form.comentarios
    ensures v.estado == Confirmada
  {
    NewVisit(slot.fecha, slot.hora, form.nombre, form.apellido, form.hotel,
             if form.hotel == Externo then "N/A" else form.habitacion,
             slot.idioma,
             if form.comentarios == "" then None else Some(form.comentarios),
             Confirmada)
  }

  /**
   The guest's language preference and contact field never reach the row:
   two forms that differ only there give the same reservation, and the
   reservation's language badge is the slot's.
   */
  lemma PreferenceIsNotStored(slot: Slot, form: BookingForm, idioma: string, contacto: string)
    ensures ReservationFor(slot, form.(idioma := idioma, contacto := contacto)) == ReservationFor(slot, form)
    ensures Badge(ReservationFor(slot, form).idioma) == Badge(slot.idioma)
  {
  }

  /**
   For an `Externo` guest the form's contact input is bound to `habitacion`,
   and the row replaces that by "N/A": whatever contact was typed is lost.
   */
  lemma ExternoContactIsLost(slot: Slot, form: BookingForm, typed: string)
    requires form.hotel == Externo
    ensures ReservationFor(slot, form.(habitacion := typed)) == ReservationFor(slot, form)
    ensures ReservationFor(slot, form.(habitacion := typed)).numeroHabitacion == "N/A"
  {
  }

  /** `Math.max(0, available - 1)`: one seat fewer, never below zero. */
  function TakeSeat(available: int): (n: int)
    ensures n >= 0
    ensures available - 1 <= n
    ensures available > 0 ==> n == available - 1
    ensures available <= 0 ==> n == 0
  {
    if available - 1 > 0 then available - 1 else 0
  }

  /**
   Taking a seat keeps a slot well-formed. With a seat left it books exactly
   one more; on a sold-out slot nothing changes, so an extra reservation
   leaves no trace in the counters.
   */
  lemma TakeSeatKeepsSlotValid(s: Slot)
    requires WellFormed(s)
    ensures var s' := s.(cuposDisponibles := TakeSeat(s.cuposDisponibles));
            WellFormed(s') &&
            (s.cuposDisponibles > 0 ==> s'.Booked() == s.Booked() + 1) &&
            (s.cuposDisponibles == 0 ==> s' == s)
  {
  }

  /** The seat write the page sends after a successful insert. */
  datatype SeatWrite = SeatWrite(id: int, cuposDisponibles: int)

  /**
   What a submission did: the rows it sent, whether it reloads the slot list
   afterwards, and the page it leaves.
   */
  datatype Submission = Submission(sent: Option<NewVisit>, seatWrite: Option<SeatWrite>, refetch: bool, page: Page)

  /** Message shown when the form is submitted with no slot chosen. */
  const NoSlotError: string := "Por favor seleccione una fecha y horario."

  /** Message shown when a failed insert carries no message of its own. */
  const DefaultSubmitError: string := "Error al procesar la reserva."

  /**
   `handleSubmit`. Without a chosen slot it only sets an error. Otherwise it
   inserts the reservation; if that fails it shows the store's message (or a
   default) and writes nothing more; if it succeeds it writes the slot's seat
   count minus one, clamped at zero, shows the confirmation whether or not
   that second write succeeded, and reloads the slot list.
   */
  function Submit(p: Page, form: BookingForm, insert: InsertOutcome, seatUpdate: MutationOutcome): (r: Submission)
    ensures p.selectedSlot.None? ==> r.sent.None? && r.seatWrite.None? && r.page == p.(error := NoSlotError)
    ensures r.sent.Some? <==> p.selectedSlot.Some?
    ensures r.sent.Some? ==> r.sent.value == ReservationFor(p.selectedSlot.value, form)
    ensures r.seatWrite.Some? <==> p.selectedSlot.Some? && insert == Inserted
    ensures r.seatWrite.Some? ==>
              r.seatWrite.value.id == p.selectedSlot.value.id &&
              r.seatWrite.value.cuposDisponibles == TakeSeat(p.selectedSlot.value.cuposDisponibles)
    ensures r.refetch <==> p.selectedSlot.Some? && insert == Inserted
    ensures r.page.success <==> p.success || (p.selectedSlot.Some? && insert == Inserted)
    ensures p.selectedSlot.Some? && insert.InsertFailed? ==>
              r.page.error == (if insert.message == "" then DefaultSubmitError else insert.message)
    ensures r.page.selectedSlot == p.selectedSlot && r.page.selectedDate == p.selectedDate
  {
    match p.selectedSlot
    case None => Submission(None, None, false, p.(error := NoSlotError))
    case Some(slot) =>
      var visit := ReservationFor(slot, form);
      match insert
      case InsertFailed(_, message) =>
        Submission(Some(visit), None, false, p.(error := if message == "" then DefaultSubmitError else message))
      case Inserted =>
        Submission(Some(visit), Some(SeatWrite(slot.id, TakeSeat(slot.cuposDisponibles))), true,
                   p.(error := "", success := true))
  }

  /** A failed seat write is not reported: the guest sees the same page as when it succeeds. */
  lemma SeatWriteFailureIsSilent(p: Page, form: BookingForm, message: string, n: nat)
    ensures Submit(p, form, Inserted, StoreError(message)) == Submit(p, form, Inserted, Affected(n))
  {
  }

  /**
   Clicking a day and submitting straight away sends nothing: the click has
   cleared the chosen slot.
   */
  lemma SubmitAfterDateClickSendsNothing(p: Page, date: string, form: BookingForm, insert: InsertOutcome, seatUpdate: MutationOutcome)
    ensures Submit(ClickDate(p, date), form, insert, seatUpdate).sent.None?
    ensures Submit(ClickDate(p, date), form, insert, seatUpdate).seatWrite.None?
    ensures Submit(ClickDate(p, date), form, insert, seatUpdate).page.error == NoSlotError
  {
  }

  /**
   The sold-out scenario: a Spanish 19:00 slot with 15 seats and one left is
   booked; the reservation carries the slot's language and the slot is left
   with none, and the reload that follows no longer lists it.
   */
  lemma LastSeatScenario(form: BookingForm, prev: seq<Slot>)
    ensures var slot := Slot(1, "2024-06-01", "19:00", "Español", 15, 1, true);
            var r := Submit(Page(Some("2024-06-01"), Some(slot), "", false), form, Inserted, Affected(1));
            && r.sent.Some? && r.sent.value.idioma == "Español"
            && r.seatWrite == Some(SeatWrite(1, 0))
            && r.page.success && r.refetch
            && FetchFechas(prev, Some([slot.(cuposDisponibles := 0)]), "2024-06-01").fechas == []
  {
  }
}

=== FILE: languages.dfy ===
/**
 Tour languages. Slots and reservations store the language as free text; the
 views recognise two alias sets, one for Spanish and one for English.
 */
module Languages {

  /** Spellings treated as Spanish: the current value and a legacy alias. */
  const SpanishAliases: set<string> := {"Español", "Spanish"}

  /** Spellings treated as English: the legacy Spanish-language name and the current value. */
  const EnglishAliases: set<string> := {"Inglés", "English"}

  /** `idioma === 'Español' || idioma === 'Spanish'`. */
  predicate IsSpanish(idioma: string) {
    idioma == "Español" || idioma == "Spanish"
  }

  /** `idioma === 'Inglés' || idioma === 'English'`. */
  predicate IsEnglish(idioma: string) {
    idioma == "Inglés" || idioma == "English"
  }

  /** The two-letter label of the language badge. */
  datatype BadgeLabel = ES | EN

  /** The badge of both admin views: ES for a Spanish alias, EN for anything else. */
  function Badge(idioma: string): (b: BadgeLabel)
    ensures b == ES <==> idioma in SpanishAliases
    ensures b == EN <==> idioma !in SpanishAliases
  {
    if IsSpanish(idioma) then ES else EN
  }

  /** The alias sets are disjoint, so no value is both Spanish and English. */
  lemma AliasesDisjoint(idioma: string)
    ensures !(IsSpanish(idioma) && IsEnglish(idioma))
    ensures SpanishAliases !! EnglishAliases
  {
  }

  /** Every English alias gets the EN badge; the badge never shows ES for English. */
  lemma EnglishBadge(idioma: string)
    requires idioma in EnglishAliases
    ensures Badge(idioma) == EN
  {
  }
}

=== FILE: reservation_list.dfy ===
/**
 The admin's master list of reservations: search, local removal after a
 delete, and reloading from the store.
 */
module ReservationList {
  import opened Tables
  import opened Strings
  import opened Seqs
  import SlotAdmin

  /**
   A reservation matches the search when the lowered term occurs in the lowered
   first name, last name or hotel, or the term itself occurs in the room
   number (which is compared without lowering). `lower` stands for `toLowerCase`.
   */
  predicate Matches(r: Visit, search: string, lower: string -> string) {
    || Includes(lower(r.nombre), lower(search))
    || Includes(lower(r.apellido), lower(search))
    || Includes(r.numeroHabitacion, search)
    || Includes(lower(r.hotel), lower(search))
  }

  /**
   The `filtered` list: exactly the matching reservations, in loaded order. An
   empty search matches every row through the room number, whatever `lower`
   does.
   */
  function Search(rs: seq<Visit>, search: string, lower: string -> string): (r: seq<Visit>)
    ensures IsSubsequence(r, rs)
    ensures forall i :: 0 <= i < |r| ==> Matches(r[i], search, lower)
    ensures forall i :: 0 <= i < |rs| && Matches(rs[i], search, lower) ==> rs[i] in r
    ensures search == "" ==> r == rs
  {
    var p := v => Matches(v, search, lower);
    if search == "" then
      assert forall i :: 0 <= i < |rs| ==> p(rs[i]) by {
        forall i | 0 <= i < |rs|
          ensures Matches(rs[i], search, lower)
        {
          IncludesEmpty(rs[i].numeroHabitacion);
        }
      }
      FilterAll(rs, p);
      Filter(rs, p)
    else Filter(rs, p)
  }

  /** A term found verbatim in a room number always selects that row, independent of lowering. */
  lemma RoomNumberSearchIsExact(rs: seq<Visit>, lower: string -> string, i: int)
    requires 0 <= i < |rs|
    ensures rs[i] in Search(rs, rs[i].numeroHabitacion, lower)
  {
    IncludesSelf(rs[i].numeroHabitacion);
  }

  /** `prev.filter(r => r.id !== id)`: every row with that id goes, the others stay in order. */
  function RemoveById(rs: seq<Visit>, id: int): (r: seq<Visit>)
    ensures IsSubsequence(r, rs)
    ensures forall i :: 0 <= i < |r| ==> r[i].id != id
    ensures forall i :: 0 <= i < |rs| && rs[i].id != id ==> rs[i] in r
    ensures (forall i :: 0 <= i < |rs| ==> rs[i].id != id) ==> r == rs
  {
    var p := (v: Visit) => v.id != id;
    if forall i :: 0 <= i < |rs| ==> rs[i].id != id then
      FilterAll(rs, p);
      Filter(rs, p)
    else Filter(rs, p)
  }

  /**
   `fetchAllReservas`: the list is replaced whenever the store returns data
   (an empty list included); on an error the previous list stays.
   */
  function Reload(prev: seq<Visit>, data: Option<seq<Visit>>): (r: seq<Visit>)
    ensures data.Some? ==> r == data.value
    ensures data.None? ==> r == prev
  {
    match data
    case Some(rows) => rows
    case None => prev
  }

  // ---------------------------------------------------------------------------
  // Deleting from the list
  // ---------------------------------------------------------------------------

  /** How the admin answers the confirmation dialog the delete button opens. */
  datatype Answer = Cancelled | Confirmed(store: MutationOutcome)

  /** The deletion the store performs: rows with that id go only after a confirmed, non-empty delete. */
  predicate StoreDeletes(answer: Answer) {
    answer.Confirmed? && SlotAdmin.ReadOutcome(answer.store) == SlotAdmin.Done
  }

  /**
   The delete button as written: it opens the confirmation dialog and removes
   the row from the local list at once, whatever the answer turns out to be.
   */
  function DeleteClickAsWritten(rs: seq<Visit>, id: int, answer: Answer): (r: seq<Visit>)
    ensures forall i :: 0 <= i < |r| ==> r[i].id != id
    ensures IsSubsequence(r, rs)
    ensures forall i :: 0 <= i < |rs| && rs[i].id != id ==> rs[i] in r
  {
    RemoveById(rs, id)
  }

  /**
   As written, cancelling the dialog still hides the row: the list shows
   nothing although the store keeps the reservation.
   */
  lemma CancelledDeleteStillHidesRow(v: Visit)
    ensures !StoreDeletes(Cancelled)
    ensures DeleteClickAsWritten([v], v.id, Cancelled) == []
  {
  }

  /**
   The delete button as intended: the row leaves the local list exactly when
   the store deleted it; a cancelled dialog, a transport error or a zero
   count leaves the list as it was.
   */
  function DeleteClick(rs: seq<Visit>, id: int, answer: Answer): (r: seq<Visit>)
    ensures StoreDeletes(answer) ==> forall i :: 0 <= i < |r| ==> r[i].id != id
    ensures !StoreDeletes(answer) ==> r == rs
    ensures IsSubsequence(r, rs)
    ensures forall i :: 0 <= i < |rs| && rs[i].id != id ==> rs[i] in r
  {
    if StoreDeletes(answer) then RemoveById(rs, id)
    else
      SubsequenceRefl(rs);
      rs
  }

  /** The two versions agree whenever the store really deleted the row. */
  lemma DeleteClickAgreesOnConfirmedDelete(rs: seq<Visit>, id: int, answer: Answer)
    requires StoreDeletes(answer)
    ensures DeleteClick(rs, id, answer) == DeleteClickAsWritten(rs, id, answer)
  {
  }
}

=== FILE: seqs.dfy ===
/** Order-preserving filtering, the `Array.prototype.filter` every view relies on. */
module Seqs {

  /** `a` can be obtained from `b` by deleting elements, keeping the rest in order. */
  predicate IsSubsequence<T(==)>(a: seq<T>, b: seq<T>)
    decreases |b|
  {
    |a| == 0 ||
    (|b| > 0 && ((a[0] == b[0] && IsSubsequence(a[1..], b[1..])) || IsSubsequence(a, b[1..])))
  }

  /** The elements of `xs` that satisfy `p`, in their original order. */
  function Filter<T(==)>(xs: seq<T>, p: T -> bool): (r: seq<T>)
    ensures |r| <= |xs|
    ensures forall i :: 0 <= i < |r| ==> p(r[i])
    ensures forall i :: 0 <= i < |r| ==> r[i] in xs
    ensures forall i :: 0 <= i < |xs| && p(xs[i]) ==> xs[i] in r
    ensures IsSubsequence(r, xs)
  {
    if |xs| == 0 then []
    else if p(xs[0]) then
      var rest := Filter(xs[1..], p);
      assert ([xs[0]] + rest)[1..] == rest;
      [xs[0]] + rest
    else Filter(xs[1..], p)
  }

  /**
   Filtering keeps every occurrence of a selected value and none of a
   rejected one: the result is exactly the sub-multiset `p` selects.
   */
  lemma {:induction false} FilterMultiplicity<T>(xs: seq<T>, p: T -> bool, y: T)
    ensures multiset(Filter(xs, p))[y] == if p(y) then multiset(xs)[y] else 0
  {
    if |xs| > 0 {
      FilterMultiplicity(xs[1..], p, y);
      assert xs == [xs[0]] + xs[1..];
    }
  }

  /** Filtering distributes over appending one element at the end. */
  lemma {:induction false} FilterSnoc<T>(xs: seq<T>, x: T, p: T -> bool)
    ensures Filter(xs + [x], p) == Filter(xs, p) + (if p(x) then [x] else [])
  {
    if |xs| > 0 {
      assert (xs + [x])[1..] == xs[1..] + [x];
      FilterSnoc(xs[1..], x, p);
    } else {
      assert [x][1..] == [];
    }
  }

  /** Filtering with a predicate every element satisfies gives the input back unchanged. */
  lemma {:induction false} FilterAll<T>(xs: seq<T>, p: T -> bool)
    requires forall i :: 0 <= i < |xs| ==> p(xs[i])
    ensures Filter(xs, p) == xs
  {
    if |xs| > 0 {
      FilterAll(xs[1..], p);
      assert [xs[0]] + xs[1..] == xs;
    }
  }

  /** Two predicates that never hold together select at most `|xs|` elements between them. */
  lemma {:induction false} FilterDisjoint<T>(xs: seq<T>, p: T -> bool, q: T -> bool)
    requires forall i :: 0 <= i < |xs| ==> !(p(xs[i]) && q(xs[i]))
    ensures |Filter(xs, p)| + |Filter(xs, q)| <= |xs|
  {
    if |xs| > 0 {
      FilterDisjoint(xs[1..], p, q);
    }
  }

  /** Every list is a subsequence of itself. */
  lemma {:induction false} SubsequenceRefl<T>(xs: seq<T>)
    ensures IsSubsequence(xs, xs)
  {
    if |xs| > 0 {
      SubsequenceRefl(xs[1..]);
    }
  }
}

=== FILE: slot_admin.dfy ===
/**
 Schedule management on the admin dashboard: editing a slot's capacity,
 adding a slot, seeding the two default slots of a day, and reading the
 store's answer to an update or delete. The store itself is not modelled:
 its answers are inputs.
 */
module SlotAdmin {
  import opened Tables
  import opened Strings

  // ---------------------------------------------------------------------------
  // Capacity edits
  // ---------------------------------------------------------------------------

  /** A JavaScript number as `parseInt` leaves it: an integer, or NaN for an unparsable field. */
  datatype Num = Finite(n: int) | NaN

  /** JavaScript `+` on numbers: NaN is absorbing. */
  function AddNum(a: Num, b: Num): Num {
    if a.Finite? && b.Finite? then Finite(a.n + b.n) else NaN
  }

  /** JavaScript `-` on numbers: NaN is absorbing. */
  function SubNum(a: Num, b: Num): Num {
    if a.Finite? && b.Finite? then Finite(a.n - b.n) else NaN
  }

  /** JavaScript `x < 0`: every comparison with NaN is false. */
  predicate IsNegative(a: Num) {
    a.Finite? && a.n < 0
  }

  /** The write a capacity edit sends, with the values exactly as computed in the browser. */
  datatype CapacityWrite = RefusedEdit | WriteCupos(total: Num, available: Num)

  /**
   The capacity edit as written: `available' = available + (newTotal - total)`,
   refused only when that is below zero. A NaN total is not refused.
   */
  function EditCapacityAsWritten(currentTotal: int, currentAvailable: int, newTotal: Num): (w: CapacityWrite)
    ensures w.RefusedEdit? ==> newTotal.Finite? && currentAvailable + newTotal.n - currentTotal < 0
    ensures newTotal.NaN? ==> w == WriteCupos(NaN, NaN)
  {
    var diff := SubNum(newTotal, Finite(currentTotal));
    var newAvailable := AddNum(Finite(currentAvailable), diff);
    if IsNegative(newAvailable) then RefusedEdit else WriteCupos(newTotal, newAvailable)
  }

  /** The decision of a capacity edit before anything is sent to the store. */
  datatype CapacityEdit = Rejected | Write(cuposTotales: int, cuposDisponibles: int)

  /**
   The capacity edit as intended: refused when the new total is not a number or
   would leave fewer seats than are already booked; otherwise the available
   count moves by exactly the change in total.
   */
  function EditCapacity(currentTotal: int, currentAvailable: int, newTotal: Num): (e: CapacityEdit)
    ensures e.Write? <==> newTotal.Finite? && newTotal.n >= currentTotal - currentAvailable
    ensures e.Write? ==> e.cuposTotales == newTotal.n
    ensures e.Write? ==> e.cuposTotales - e.cuposDisponibles == currentTotal - currentAvailable
    ensures e.Write? ==> e.cuposDisponibles >= 0
  {
    match newTotal
    case NaN => Rejected
    case Finite(t) =>
      var newAvailable := currentAvailable + (t - currentTotal);
      if newAvailable < 0 then Rejected else Write(t, newAvailable)
  }

  /** On every numeric input the intended edit and the edit as written send the same values. */
  lemma EditCapacityAgreesOnNumbers(currentTotal: int, currentAvailable: int, t: int)
    ensures EditCapacity(currentTotal, currentAvailable, Finite(t)).Rejected?
            <==> EditCapacityAsWritten(currentTotal, currentAvailable, Finite(t)).RefusedEdit?
    ensures EditCapacity(currentTotal, currentAvailable, Finite(t)).Write? ==>
              EditCapacityAsWritten(currentTotal, currentAvailable, Finite(t)) ==
              WriteCupos(Finite(t), Finite(EditCapacity(currentTotal, currentAvailable, Finite(t)).cuposDisponibles))
  {
  }

  /**
   A cleared capacity field (`parseInt('')` is NaN) gets past the guard as
   written and sends NaN for both counters; the intended edit refuses it.
   */
  lemma EmptyCapacityFieldIsWritten()
    ensures EditCapacityAsWritten(15, 10, NaN) == WriteCupos(NaN, NaN)
    ensures EditCapacity(15, 10, NaN) == Rejected
  {
  }

  /**
   An accepted edit keeps a well-formed slot well-formed and keeps its booked
   count; an edit is refused exactly when the new total is below the bookings.
   */
  lemma EditCapacityKeepsSlotValid(s: Slot, t: int)
    requires WellFormed(s)
    ensures EditCapacity(s.cuposTotales, s.cuposDisponibles, Finite(t)).Rejected? <==> t < s.Booked()
    ensures match EditCapacity(s.cuposTotales, s.cuposDisponibles, Finite(t))
            case Write(total, available) =>
              var s' := s.(cuposTotales := total, cuposDisponibles := available);
              WellFormed(s') && s'.Booked() == s.Booked()
            case Rejected => true
  {
  }

  /** The store's `update ... eq('id', id)`: every row with that id gets the new counters. */
  function SetCupos(table: seq<Slot>, id: int, total: int, available: int): (r: seq<Slot>)
    ensures |r| == |table|
    ensures forall i :: 0 <= i < |r| && table[i].id != id ==> r[i] == table[i]
    ensures forall i :: 0 <= i < |r| && table[i].id == id ==>
              r[i] == table[i].(cuposTotales := total, cuposDisponibles := available)
  {
    seq(|table|, i requires 0 <= i < |table| =>
      if table[i].id == id then table[i].(cuposTotales := total, cuposDisponibles := available) else table[i])
  }

  /**
   Applying an accepted edit, computed from the current counters of the edited
   row, keeps the whole table well-formed, keeps every row's booked count, and
   leaves every other row as it was.
   */
  lemma CapacityEditKeepsTableValid(table: seq<Slot>, id: int, currentTotal: int, currentAvailable: int, t: int)
    requires AllWellFormed(table)
    requires forall i :: 0 <= i < |table| && table[i].id == id ==>
               table[i].cuposTotales == currentTotal && table[i].cuposDisponibles == currentAvailable
    requires EditCapacity(currentTotal, currentAvailable, Finite(t)).Write?
    ensures var e := EditCapacity(currentTotal, currentAvailable, Finite(t));
            var table' := SetCupos(table, id, e.cuposTotales, e.cuposDisponibles);
            AllWellFormed(table') &&
            (forall i :: 0 <= i < |table| ==> table'[i].Booked() == table[i].Booked()) &&
            (forall i :: 0 <= i < |table| && table[i].id != id ==> table'[i] == table[i])
  {
  }

  // ---------------------------------------------------------------------------
  // The store's answer to an update or delete
  // ---------------------------------------------------------------------------

  /** How a handler reads that answer. */
  datatype MutationReport = Done | NotFound | Failed(message: string)

  /**
   A transport error is reported with its message; zero affected rows is a
   separate "not found or not permitted" failure; only a non-zero count is a
   success, and only a success refetches the day's data.
   */
  function ReadOutcome(o: MutationOutcome): (r: MutationReport)
    ensures r == Done <==> o.Affected? && o.count > 0
    ensures r == NotFound <==> o == Affected(0)
    ensures r.Failed? <==> o.StoreError?
    ensures r.Failed? ==> r.message == o.message
  {
    match o
    case StoreError(m) => Failed(m)
    case Affected(n) => if n == 0 then NotFound else Done
  }

  /** What the capacity handler did, with the write it sent of type `W`. */
  datatype CuposEffect<W> = InvalidOperation | Sent(write: W, report: MutationReport)

  /**
   `handleUpdateCupos` as written: the edit as written decides, so a NaN total
   is sent (as NaN counters) and the store's answer is read as for any update.
   */
  function UpdateCuposAsWritten(currentTotal: int, currentAvailable: int, newTotal: Num, store: MutationOutcome)
    : (r: CuposEffect<CapacityWrite>)
    ensures r.InvalidOperation? <==> newTotal.Finite? && newTotal.n < currentTotal - currentAvailable
    ensures r.Sent? ==> r.write.WriteCupos? && r.write.total == newTotal && r.report == ReadOutcome(store)
    ensures newTotal.NaN? ==> r == Sent(WriteCupos(NaN, NaN), ReadOutcome(store))
  {
    var w := EditCapacityAsWritten(currentTotal, currentAvailable, newTotal);
    if w.RefusedEdit? then InvalidOperation else Sent(w, ReadOutcome(store))
  }

  /**
   `handleUpdateCupos` with the intended NaN refusal: a refused edit sends
   nothing, whatever the store would have answered; an accepted one sends the
   new total with an available count that keeps the booked count, and reads
   the store's answer, refreshing only on a non-zero count.
   */
  function UpdateCupos(currentTotal: int, currentAvailable: int, newTotal: Num, store: MutationOutcome)
    : (r: CuposEffect<CapacityEdit>)
    ensures r.InvalidOperation? <==> EditCapacity(currentTotal, currentAvailable, newTotal).Rejected?
    ensures r.Sent? ==> newTotal.Finite? && r.write.Write? && r.write.cuposTotales == newTotal.n
    ensures r.Sent? ==> r.write.cuposTotales - r.write.cuposDisponibles == currentTotal - currentAvailable
    ensures r.Sent? ==> r.report == ReadOutcome(store)
    ensures (r.Sent? && r.report == Done) <==> (r.Sent? && store.Affected? && store.count > 0)
  {
    var e := EditCapacity(currentTotal, currentAvailable, newTotal);
    if e.Rejected? then InvalidOperation else Sent(e, ReadOutcome(store))
  }

  /**
   The two handlers differ only on a NaN total: on numbers they refuse the
   same edits and send the same counters. With a cleared field the handler as
   written sends NaN counters and, if the store reports a touched row, treats
   it as a success; the intended one refuses it.
   */
  lemma UpdateCuposDiffersOnlyOnNaN(currentTotal: int, currentAvailable: int, newTotal: Num, store: MutationOutcome)
    ensures newTotal.Finite? ==>
              match UpdateCupos(currentTotal, currentAvailable, newTotal, store)
              case InvalidOperation => UpdateCuposAsWritten(currentTotal, currentAvailable, newTotal, store).InvalidOperation?
              case Sent(e, report) =>
                UpdateCuposAsWritten(currentTotal, currentAvailable, newTotal, store) ==
                Sent(WriteCupos(Finite(e.cuposTotales), Finite(e.cuposDisponibles)), report)
    ensures newTotal.NaN? ==>
              UpdateCupos(currentTotal, currentAvailable, newTotal, store).InvalidOperation? &&
              UpdateCuposAsWritten(currentTotal, currentAvailable, newTotal, store).Sent?
  {
  }

  // ---------------------------------------------------------------------------
  // Adding a slot
  // ---------------------------------------------------------------------------

  /**
   The add-slot form: time, language and seat count (initially 19:00, Español,
   15). The seat field holds `parseInt` of what was typed, so it may be NaN
   or negative.
   */
  datatype SlotDraft = SlotDraft(hora: string, idioma: string, cupos: Num)

  /** A row as sent to the store's insert; the store assigns the id. */
  datatype NewSlot = NewSlot(fecha: string, hora: string, idioma: string,
                             cuposTotales: Num, cuposDisponibles: Num, habilitado: bool)

  /** The row a draft becomes: fully available and enabled. */
  function RowFor(fecha: string, d: SlotDraft): (row: NewSlot)
    ensures row.cuposDisponibles == row.cuposTotales == d.cupos
    ensures row.habilitado
    ensures row.fecha == fecha && row.hora == d.hora && row.idioma == d.idioma
  {
    NewSlot(fecha, d.hora, d.idioma, d.cupos, d.cupos, true)
  }

  /**
   `s` is a slot the store may hold after accepting `row`: the same date,
   language and flag, a time that starts with the one sent (a time column may
   read back with seconds), and the same counters where they are numbers.
   What the store keeps for a NaN counter (sent as JSON `null`) is up to its
   schema.
   */
  predicate Holds(s: Slot, row: NewSlot) {
    && s.fecha == row.fecha && StartsWith(s.hora, row.hora) && s.idioma == row.idioma && s.habilitado == row.habilitado
    && (row.cuposTotales.Finite? ==> s.cuposTotales == row.cuposTotales.n)
    && (row.cuposDisponibles.Finite? ==> s.cuposDisponibles == row.cuposDisponibles.n)
  }

  /** A loaded slot clashes with a draft: its time starts with the draft's time, and the language is the same. */
  predicate Clashes(s: Slot, d: SlotDraft) {
    StartsWith(s.hora, d.hora) && s.idioma == d.idioma
  }

  /** `loaded.some(...)` / `loaded.find(...)` with the clash test, scanned front to back. */
  function HasClash(loaded: seq<Slot>, d: SlotDraft): (b: bool)
    ensures b <==> exists i :: 0 <= i < |loaded| && Clashes(loaded[i], d)
  {
    if |loaded| == 0 then false
    else if Clashes(loaded[0], d) then true
    else
      var b := HasClash(loaded[1..], d);
      assert b ==> exists i :: 0 <= i < |loaded| && Clashes(loaded[i], d) by {
        if b {
          var j :| 0 <= j < |loaded| - 1 && Clashes(loaded[1..][j], d);
          assert Clashes(loaded[j + 1], d);
        }
      }
      assert (exists i :: 0 <= i < |loaded| && Clashes(loaded[i], d)) ==> b by {
        if exists i :: 0 <= i < |loaded| && Clashes(loaded[i], d) {
          var j :| 0 <= j < |loaded| && Clashes(loaded[j], d);
          assert j != 0;
          assert Clashes(loaded[1..][j - 1], d);
        }
      }
      b
  }

  /** How adding a slot ends. */
  datatype AddSlotOutcome = DemoMode | ScheduleConflict | Created | DuplicateSlot | SystemError(message: string)

  /** What adding a slot did: the row it sent, if any, and how it ended. */
  datatype AddSlotResult = AddSlotResult(sent: Option<NewSlot>, outcome: AddSlotOutcome)

  /**
   `handleAddSlot`: in demo mode nothing is sent; a draft that clashes with a
   loaded slot is refused locally; otherwise one fully available, enabled row
   is inserted and the store's answer decides the outcome (a unique violation
   is reported as a duplicate, other errors verbatim).
   */
  function AddSlot(demo: bool, loaded: seq<Slot>, fecha: string, d: SlotDraft, store: InsertOutcome): (r: AddSlotResult)
    ensures r.outcome == DemoMode <==> demo
    ensures r.outcome == ScheduleConflict <==> !demo && exists i :: 0 <= i < |loaded| && Clashes(loaded[i], d)
    ensures r.sent.Some? <==> !demo && forall i :: 0 <= i < |loaded| ==> !Clashes(loaded[i], d)
    ensures r.sent.Some? ==> r.sent.value.cuposDisponibles == r.sent.value.cuposTotales == d.cupos && r.sent.value.habilitado
    ensures r.sent.Some? ==> r.sent.value.fecha == fecha && r.sent.value.hora == d.hora && r.sent.value.idioma == d.idioma
    ensures r.outcome == Created <==> r.sent.Some? && store == Inserted
    ensures r.outcome == DuplicateSlot <==> r.sent.Some? && store.InsertFailed? && store.code == UniqueViolation
  {
    if demo then AddSlotResult(None, DemoMode)
    else if HasClash(loaded, d) then AddSlotResult(None, ScheduleConflict)
    else
      var row := RowFor(fecha, d);
      match store
      case Inserted => AddSlotResult(Some(row), Created)
      case InsertFailed(code, message) =>
        AddSlotResult(Some(row), if code == UniqueViolation then DuplicateSlot else SystemError(message))
  }

  /**
   Once a created slot is loaded, adding the same draft again is refused
   locally: the duplicate check catches its own earlier insert, whatever the
   store made of the counters. A created slot with a numeric seat count is
   well-formed exactly when that count is not negative.
   */
  lemma AddSlotTwiceConflicts(loaded: seq<Slot>, fecha: string, d: SlotDraft, s: Slot)
    requires AddSlot(false, loaded, fecha, d, Inserted).outcome == Created
    requires Holds(s, RowFor(fecha, d))
    ensures AddSlot(false, loaded + [s], fecha, d, Inserted).outcome == ScheduleConflict
    ensures d.cupos.Finite? ==> (WellFormed(s) <==> d.cupos.n >= 0)
  {
    var loaded' := loaded + [s];
    assert loaded'[|loaded|] == s;
    assert Clashes(loaded'[|loaded|], d);
  }

  /**
   The form's seat count is sent as typed: a negative count and a NaN one
   (from a cleared field) both reach the store's insert, and a store that
   accepts the row reports the slot as created.
   */
  lemma AddSlotSendsUncheckedCounts(fecha: string, hora: string, idioma: string)
    ensures var r := AddSlot(false, [], fecha, SlotDraft(hora, idioma, Finite(-5)), Inserted);
            r.outcome == Created && r.sent == Some(NewSlot(fecha, hora, idioma, Finite(-5), Finite(-5), true))
    ensures var r := AddSlot(false, [], fecha, SlotDraft(hora, idioma, NaN), Inserted);
            r.outcome == Created && r.sent == Some(NewSlot(fecha, hora, idioma, NaN, NaN, true))
  {
  }

  // ---------------------------------------------------------------------------
  // Seeding the default slots of a day
  // ---------------------------------------------------------------------------

  /** The two standard slots of a day: 19:00 in Spanish and 19:30 in English, 15 seats each. */
  const Defaults: seq<SlotDraft> := [SlotDraft("19:00", "Español", Finite(15)), SlotDraft("19:30", "Inglés", Finite(15))]

  /** Rows written to the store, and the message of the error that stopped the loop, if any. */
  datatype SeedResult = SeedResult(inserted: seq<NewSlot>, abort: Option<string>)

  /** An insert error other than a unique violation: it stops the seeding loop. */
  predicate Fatal(o: InsertOutcome) {
    o.InsertFailed? && o.code != UniqueViolation
  }

  /**
   The seeding loop over `drafts`: a draft that clashes with a loaded slot is
   skipped; otherwise its row is inserted; a unique violation is tolerated and
   any other error ends the loop. Rows inserted before an error stay inserted.
   */
  function Seed(drafts: seq<SlotDraft>, loaded: seq<Slot>, fecha: string, store: NewSlot -> InsertOutcome): (r: SeedResult)
    ensures |r.inserted| <= |drafts|
  {
    if |drafts| == 0 then SeedResult([], None)
    else
      var rest := Seed(drafts[1..], loaded, fecha, store);
      if HasClash(loaded, drafts[0]) then rest
      else
        var row := RowFor(fecha, drafts[0]);
        match store(row)
        case Inserted => SeedResult([row] + rest.inserted, rest.abort)
        case InsertFailed(code, message) =>
          if code == UniqueViolation then rest else SeedResult([], Some(message))
  }

  /**
   What seeding guarantees: every row it wrote comes from a draft that was not
   already loaded and that the store accepted; it stops exactly when some
   attempted draft meets an error other than a unique violation; and when it
   does not stop, it wrote exactly the rows of the accepted drafts, in order.
   */
  lemma {:induction false} SeedProperties(drafts: seq<SlotDraft>, loaded: seq<Slot>, fecha: string, store: NewSlot -> InsertOutcome)
    ensures var r := Seed(drafts, loaded, fecha, store);
            && (forall j :: 0 <= j < |r.inserted| ==>
                  store(r.inserted[j]) == Inserted &&
                  exists k :: 0 <= k < |drafts| && r.inserted[j] == RowFor(fecha, drafts[k]) && !HasClash(loaded, drafts[k]))
            && (r.abort.Some? <==>
                  exists k :: 0 <= k < |drafts| && !HasClash(loaded, drafts[k]) && Fatal(store(RowFor(fecha, drafts[k]))))
            && (r.abort.None? ==> |r.inserted| == |Accepted(drafts, loaded, fecha, store)|)
            && (r.abort.None? ==> r.inserted == Rows(fecha, Accepted(drafts, loaded, fecha, store)))
  {
    if |drafts| > 0 {
      SeedProperties(drafts[1..], loaded, fecha, store);
      assert forall k :: 0 <= k < |drafts| - 1 ==> drafts[1..][k] == drafts[k + 1];
      var r := Seed(drafts, loaded, fecha, store);
      var rest := Seed(drafts[1..], loaded, fecha, store);
      if !HasClash(loaded, drafts[0]) && store(RowFor(fecha, drafts[0])) == Inserted {
        assert r.inserted == [RowFor(fecha, drafts[0])] + rest.inserted;
        forall j | 0 <= j < |r.inserted|
          ensures exists k :: 0 <= k < |drafts| && r.inserted[j] == RowFor(fecha, drafts[k]) && !HasClash(loaded, drafts[k])
        {
          if j == 0 {
            assert r.inserted[j] == RowFor(fecha, drafts[0]);
          } else {
            assert r.inserted[j] == rest.inserted[j - 1];
          }
        }
      }
    }
  }

  /** The drafts whose insert the store accepts, among those not already present. */
  function Accepted(drafts: seq<SlotDraft>, loaded: seq<Slot>, fecha: string, store: NewSlot -> InsertOutcome): seq<SlotDraft>
  {
    if |drafts| == 0 then []
    else if !HasClash(loaded, drafts[0]) && store(RowFor(fecha, drafts[0])) == Inserted
    then [drafts[0]] + Accepted(drafts[1..], loaded, fecha, store)
    else Accepted(drafts[1..], loaded, fecha, store)
  }

  /** The rows that `drafts` become on `fecha`, in order. */
  function Rows(fecha: string, drafts: seq<SlotDraft>): seq<NewSlot> {
    if |drafts| == 0 then [] else [RowFor(fecha, drafts[0])] + Rows(fecha, drafts[1..])
  }

  /** What the seeding handler reports. */
  datatype SeedReport = NotConfigured | SeedAdded(added: nat) | AlreadyPresent | SeedError(message: string)

  /**
   `handleAddDefaults`, the loop as written: it walks the two defaults in
   order, skips those already loaded, counts only accepted inserts, tolerates
   a unique violation and stops at any other error. The day's data is
   refetched only when the loop finished and added something.
   */
  method AddDefaults(configured: bool, loaded: seq<Slot>, fecha: string, store: NewSlot -> InsertOutcome)
    returns (report: SeedReport, inserted: seq<NewSlot>)
    ensures !configured ==> report == NotConfigured && inserted == []
    ensures configured ==> inserted == Seed(Defaults, loaded, fecha, store).inserted
    ensures configured ==> (report.SeedError? <==> Seed(Defaults, loaded, fecha, store).abort.Some?)
    ensures report.SeedAdded? ==> report.added == |inserted| > 0
    ensures report == AlreadyPresent ==> inserted == []
    ensures configured && Seed(Defaults, loaded, fecha, store).abort.None? ==>
              report == if |inserted| > 0 then SeedAdded(|inserted|) else AlreadyPresent
    ensures forall j :: 0 <= j < |inserted| ==>
              inserted[j].cuposDisponibles == inserted[j].cuposTotales == Finite(15) && inserted[j].habilitado
  {
    if !configured {
      return NotConfigured, [];
    }
    var added := 0;
    inserted := [];
    var i := 0;
    while i < |Defaults|
      invariant 0 <= i <= |Defaults|
      invariant added == |inserted|
      invariant Seed(Defaults, loaded, fecha, store) == Prepend(inserted, Seed(Defaults[i..], loaded, fecha, store))
      invariant forall j :: 0 <= j < |inserted| ==>
                  inserted[j].cuposDisponibles == inserted[j].cuposTotales == Finite(15) && inserted[j].habilitado
    {
      var slot := Defaults[i];
      assert Defaults[i..][1..] == Defaults[i + 1..];
      if HasClash(loaded, slot) {
        i := i + 1;
        continue;
      }
      var row := RowFor(fecha, slot);
      var outcome := store(row);
      if outcome.InsertFailed? && outcome.code != UniqueViolation {
        return SeedError(outcome.message), inserted;
      }
      if outcome == Inserted {
        added := added + 1;
        inserted := inserted + [row];
      }
      i := i + 1;
    }
    assert Defaults[i..] == [];
    if added > 0 {
      report := SeedAdded(added);
    } else {
      report := AlreadyPresent;
    }
  }

  /** The result of running earlier rows first and then `r`. */
  function Prepend(rows: seq<NewSlot>, r: SeedResult): SeedResult {
    SeedResult(rows + r.inserted, r.abort)
  }

  /** When both defaults are already on the loaded day, seeding writes nothing and says so. */
  lemma SeedSkipsLoadedDefaults(loaded: seq<Slot>, fecha: string, store: NewSlot -> InsertOutcome)
    requires forall k :: 0 <= k < |Defaults| ==> HasClash(loaded, Defaults[k])
    ensures Seed(Defaults, loaded, fecha, store) == SeedResult([], None)
  {
    var tail := Defaults[1..];
    assert HasClash(loaded, Defaults[0]) && HasClash(loaded, tail[0]);
    assert Seed(tail[1..], loaded, fecha, store) == SeedResult([], None);
  }
}

=== FILE: stats.dfy ===
/**
 The dashboard's aggregations over loaded reservations and slots: the 30-day
 analytics histogram, the selected day's figures, and the home-view search.
 */
module Stats {
  import opened Tables
  import opened Strings
  import opened Seqs
  import opened Languages

  // ---------------------------------------------------------------------------
  // Reference counts, defined on the last element
  // ---------------------------------------------------------------------------

  /** Number of visits on date `d`. */
  function CountOn(vs: seq<Visit>, d: string): nat {
    if |vs| == 0 then 0
    else CountOn(vs[..|vs| - 1], d) + (if vs[|vs| - 1].fecha == d then 1 else 0)
  }

  /** Number of Spanish visits on date `d`. */
  function CountSpanishOn(vs: seq<Visit>, d: string): (n: nat)
    ensures n <= CountOn(vs, d)
  {
    if |vs| == 0 then 0
    else CountSpanishOn(vs[..|vs| - 1], d) +
         (if vs[|vs| - 1].fecha == d && IsSpanish(vs[|vs| - 1].idioma) then 1 else 0)
  }

  /** Number of Spanish visits overall. */
  function CountSpanish(vs: seq<Visit>): nat {
    if |vs| == 0 then 0
    else CountSpanish(vs[..|vs| - 1]) + (if IsSpanish(vs[|vs| - 1].idioma) then 1 else 0)
  }

  /** Number of English visits overall. */
  function CountEnglish(vs: seq<Visit>): nat {
    if |vs| == 0 then 0
    else CountEnglish(vs[..|vs| - 1]) + (if IsEnglish(vs[|vs| - 1].idioma) then 1 else 0)
  }

  // ---------------------------------------------------------------------------
  // Analytics
  // ---------------------------------------------------------------------------

  /** One bar of the histogram. */
  datatype DayCount = DayCount(date: string, total: nat, es: nat, en: nat)

  /** Window totals. */
  datatype Totals = Totals(es: nat, en: nat, all: nat)

  /** What the analytics view shows. */
  datatype Analytics = Analytics(dailyHistory: seq<DayCount>, totals: Totals)

  /** One step of the `forEach`: bump the visit's day entry and its language column. */
  function Bump(m: map<string, DayCount>, v: Visit): map<string, DayCount> {
    var e := if v.fecha in m then m[v.fecha] else DayCount(v.fecha, 0, 0, 0);
    m[v.fecha := if IsSpanish(v.idioma) then e.(total := e.total + 1, es := e.es + 1)
                 else e.(total := e.total + 1, en := e.en + 1)]
  }

  /**
   The per-day map built by the `forEach`: a day has an entry iff some visit
   falls on it, and its entry counts that day's visits, with every visit
   classed as Spanish or else English.
   */
  function Tally(vs: seq<Visit>): (m: map<string, DayCount>)
    ensures forall d :: d in m <==> CountOn(vs, d) > 0
    ensures forall d :: d in m ==>
              m[d].date == d && m[d].total == CountOn(vs, d) &&
              m[d].es == CountSpanishOn(vs, d) && m[d].es + m[d].en == m[d].total
  {
    if |vs| == 0 then map[]
    else
      var init, v := vs[..|vs| - 1], vs[|vs| - 1];
      var m0 := Tally(init);
      var m := Bump(m0, v);
      assert forall d :: d in m ==> m[d] == if d == v.fecha then m[v.fecha] else m0[d];
      m
  }

  /** Language totals by the same classification: Spanish aliases, else English. */
  function TallyTotals(vs: seq<Visit>): (t: Totals)
    ensures t.es == CountSpanish(vs)
    ensures t.es + t.en == t.all == |vs|
  {
    if |vs| == 0 then Totals(0, 0, 0)
    else
      var t := TallyTotals(vs[..|vs| - 1]);
      if IsSpanish(vs[|vs| - 1].idioma) then Totals(t.es + 1, t.en, |vs|)
      else Totals(t.es, t.en + 1, |vs|)
  }

  /**
   `fetchAnalyticsData`: `fetched` is the query's data, or None when the query
   failed (then no visit is counted). `window` is the list of days of the
   30-day interval. The history has one entry per window day, in order, with
   zeros for days without visits.
   */
  function Analyze(fetched: Option<seq<Visit>>, window: seq<string>): (a: Analytics)
    ensures |a.dailyHistory| == |window|
    ensures forall i :: 0 <= i < |window| ==>
              var vs := if fetched.Some? then fetched.value else [];
              a.dailyHistory[i].date == window[i] &&
              a.dailyHistory[i].total == CountOn(vs, window[i]) &&
              a.dailyHistory[i].es == CountSpanishOn(vs, window[i]) &&
              a.dailyHistory[i].es + a.dailyHistory[i].en == a.dailyHistory[i].total
    ensures a.totals.es + a.totals.en == a.totals.all
    ensures fetched.Some? ==> a.totals.all == |fetched.value| && a.totals.es == CountSpanish(fetched.value)
    ensures fetched.None? ==> a.totals == Totals(0, 0, 0)
  {
    var vs := if fetched.Some? then fetched.value else [];
    var m := Tally(vs);
    var history := seq(|window|, i requires 0 <= i < |window| =>
      if window[i] in m then m[window[i]] else DayCount(window[i], 0, 0, 0));
    Analytics(history, TallyTotals(vs))
  }

  /** The days of `window` are pairwise different. */
  predicate Distinct(window: seq<string>) {
    forall i, j :: 0 <= i < j < |window| ==> window[i] != window[j]
  }

  /** Sum of the bars of a histogram. */
  function SumTotals(h: seq<DayCount>): nat {
    if |h| == 0 then 0 else SumTotals(h[..|h| - 1]) + h[|h| - 1].total
  }

  /** Sum over `window` of the visits on each day. */
  function SumCounts(vs: seq<Visit>, window: seq<string>): nat {
    if |window| == 0 then 0 else SumCounts(vs, window[..|window| - 1]) + CountOn(vs, window[|window| - 1])
  }

  /** How many days of `window` equal `d`. */
  function Occurrences(window: seq<string>, d: string): nat {
    if |window| == 0 then 0
    else Occurrences(window[..|window| - 1], d) + (if window[|window| - 1] == d then 1 else 0)
  }

  lemma {:induction false} OccurrencesOfDistinct(window: seq<string>, d: string)
    requires Distinct(window)
    ensures d in window ==> Occurrences(window, d) == 1
    ensures d !in window ==> Occurrences(window, d) == 0
  {
    if |window| > 0 {
      var init := window[..|window| - 1];
      assert Distinct(init);
      OccurrencesOfDistinct(init, d);
      if window[|window| - 1] == d {
        assert d !in init;
      } else {
        assert d in window ==> d in init by {
          if d in window {
            var k :| 0 <= k < |window| && window[k] == d;
            assert init[k] == d;
          }
        }
      }
    }
  }

  /** Adding one visit raises the window sum by the number of window days that visit falls on. */
  lemma {:induction false} SumCountsSnoc(vs: seq<Visit>, v: Visit, window: seq<string>)
    ensures SumCounts(vs + [v], window) == SumCounts(vs, window) + Occurrences(window, v.fecha)
  {
    if |window| > 0 {
      SumCountsSnoc(vs, v, window[..|window| - 1]);
      assert (vs + [v])[..|vs + [v]| - 1] == vs;
    }
  }

  /** With distinct days covering every visit, the window sum counts every visit once. */
  lemma {:induction false} SumCountsCoversAll(vs: seq<Visit>, window: seq<string>)
    requires Distinct(window)
    requires forall k :: 0 <= k < |vs| ==> vs[k].fecha in window
    ensures SumCounts(vs, window) == |vs|
  {
    if |vs| == 0 {
      SumCountsEmpty(window);
    } else {
      var init := vs[..|vs| - 1];
      var v := vs[|vs| - 1];
      SumCountsCoversAll(init, window);
      assert init + [v] == vs;
      SumCountsSnoc(init, v, window);
      OccurrencesOfDistinct(window, v.fecha);
    }
  }

  lemma {:induction false} SumCountsEmpty(window: seq<string>)
    ensures SumCounts([], window) == 0
  {
    if |window| > 0 {
      SumCountsEmpty(window[..|window| - 1]);
    }
  }

  /** The sum of the histogram bars is the window sum of the daily counts. */
  lemma {:induction false} SumTotalsIsSumCounts(h: seq<DayCount>, vs: seq<Visit>, window: seq<string>)
    requires |h| == |window|
    requires forall i :: 0 <= i < |window| ==> h[i].total == CountOn(vs, window[i])
    ensures SumTotals(h) == SumCounts(vs, window)
  {
    if |h| > 0 {
      SumTotalsIsSumCounts(h[..|h| - 1], vs, window[..|window| - 1]);
    }
  }

  /**
   When every fetched visit falls inside a window of distinct days (the query
   asks for exactly that range), the bars of the histogram add up to the
   total number of visits: the zero-filled history loses nothing.
   */
  lemma HistoryAccountsForEveryVisit(vs: seq<Visit>, window: seq<string>)
    requires Distinct(window)
    requires forall k :: 0 <= k < |vs| ==> vs[k].fecha in window
    ensures SumTotals(Analyze(Some(vs), window).dailyHistory) == Analyze(Some(vs), window).totals.all
  {
    var a := Analyze(Some(vs), window);
    SumTotalsIsSumCounts(a.dailyHistory, vs, window);
    SumCountsCoversAll(vs, window);
  }

  // ---------------------------------------------------------------------------
  // The selected day's figures
  // ---------------------------------------------------------------------------

  /** A visit in an English alias. */
  predicate IsEnglishVisit(v: Visit) { IsEnglish(v.idioma) }

  /** A visit in a Spanish alias. */
  predicate IsSpanishVisit(v: Visit) { IsSpanish(v.idioma) }

  /** Filtering on a Spanish alias selects exactly the visits `CountSpanish` counts. */
  lemma {:induction false} SpanishFilterCounts(vs: seq<Visit>)
    ensures |Filter(vs, IsSpanishVisit)| == CountSpanish(vs)
  {
    if |vs| > 0 {
      var init := vs[..|vs| - 1];
      assert vs == init + [vs[|vs| - 1]];
      FilterSnoc(init, vs[|vs| - 1], IsSpanishVisit);
      SpanishFilterCounts(init);
    }
  }

  /** Filtering on an English alias selects exactly the visits `CountEnglish` counts. */
  lemma {:induction false} EnglishFilterCounts(vs: seq<Visit>)
    ensures |Filter(vs, IsEnglishVisit)| == CountEnglish(vs)
  {
    if |vs| > 0 {
      var init := vs[..|vs| - 1];
      assert vs == init + [vs[|vs| - 1]];
      FilterSnoc(init, vs[|vs| - 1], IsEnglishVisit);
      EnglishFilterCounts(init);
    }
  }

  /** Sum of `cupos_totales`. */
  function TotalCapacity(slots: seq<Slot>): int {
    if |slots| == 0 then 0 else TotalCapacity(slots[..|slots| - 1]) + slots[|slots| - 1].cuposTotales
  }

  /** Sum of `cupos_totales - cupos_disponibles`. */
  function TotalBooked(slots: seq<Slot>): int {
    if |slots| == 0 then 0 else TotalBooked(slots[..|slots| - 1]) + slots[|slots| - 1].Booked()
  }

  /** On well-formed slots the booked seats are between zero and the capacity. */
  lemma {:induction false} BookedWithinCapacity(slots: seq<Slot>)
    requires AllWellFormed(slots)
    ensures 0 <= TotalBooked(slots) <= TotalCapacity(slots)
  {
    if |slots| > 0 {
      BookedWithinCapacity(slots[..|slots| - 1]);
    }
  }

  /**
   `Math.round(booked / cap * 100)` in exact arithmetic, 0 when there is no
   capacity. The result is the whole percentage nearest to the ratio, halves
   rounding up.
   */
  function Occupancy(cap: int, booked: int): (r: int)
    ensures cap <= 0 ==> r == 0
    ensures cap > 0 ==> 2 * cap * r <= 200 * booked + cap < 2 * cap * (r + 1)
  {
    if cap > 0 then (200 * booked + cap) / (2 * cap) else 0
  }

  /** A rounded percentage of a share between nothing and everything lies in 0..100. */
  lemma OccupancyIsPercentage(cap: int, booked: int)
    requires 0 <= booked <= cap
    ensures 0 <= Occupancy(cap, booked) <= 100
  {
    if cap > 0 {
      var r := Occupancy(cap, booked);
      if r > 100 {
        ScaleMonotone(2 * cap, 101, r);
      }
      if r < 0 {
        ScaleMonotone(2 * cap, r + 1, 0);
      }
    }
  }

  lemma ScaleMonotone(a: int, x: int, y: int)
    requires a > 0 && x <= y
    ensures a * x <= a * y
  {
  }

  /** The figures of the selected day. */
  datatype DailyStats = DailyStats(total: nat, en: nat, es: nat, occupancy: int)

  /**
   The statistics part of `fetchDailyData`: visits of the day, how many are in
   an English and a Spanish alias (a visit in any other language counts in the
   total only), and the occupancy of the day's slots.
   */
  function ComputeDailyStats(visits: seq<Visit>, slots: seq<Slot>): (r: DailyStats)
    ensures r.total == |visits|
    ensures r.en == CountEnglish(visits) && r.es == CountSpanish(visits)
    ensures r.en + r.es <= r.total
    ensures r.occupancy == Occupancy(TotalCapacity(slots), TotalBooked(slots))
    ensures AllWellFormed(slots) ==> 0 <= r.occupancy <= 100
  {
    var en := |Filter(visits, IsEnglishVisit)|;
    var es := |Filter(visits, IsSpanishVisit)|;
    EnglishFilterCounts(visits);
    SpanishFilterCounts(visits);
    assert en + es <= |visits| by {
      forall i | 0 <= i < |visits|
        ensures !(IsEnglishVisit(visits[i]) && IsSpanishVisit(visits[i]))
      {
        AliasesDisjoint(visits[i].idioma);
      }
      FilterDisjoint(visits, IsEnglishVisit, IsSpanishVisit);
    }
    assert AllWellFormed(slots) ==> 0 <= Occupancy(TotalCapacity(slots), TotalBooked(slots)) <= 100 by {
      if AllWellFormed(slots) {
        BookedWithinCapacity(slots);
        OccupancyIsPercentage(TotalCapacity(slots), TotalBooked(slots));
      }
    }
    DailyStats(|visits|, en, es, Occupancy(TotalCapacity(slots), TotalBooked(slots)))
  }

  // ---------------------------------------------------------------------------
  // Home-view search
  // ---------------------------------------------------------------------------

  /**
   A visit is listed on the home view when the search is empty or the lowered
   term occurs in the lowered first or last name. `lower` stands for
   `toLowerCase`.
   */
  predicate HomeMatches(v: Visit, term: string, lower: string -> string) {
    term == "" || Includes(lower(v.nombre), lower(term)) || Includes(lower(v.apellido), lower(term))
  }

  /**
   The home-view table: the matching visits of the day, in their loaded order;
   an empty search lists every visit.
   */
  function HomeSearch(visits: seq<Visit>, term: string, lower: string -> string): (r: seq<Visit>)
    ensures IsSubsequence(r, visits)
    ensures forall i :: 0 <= i < |r| ==> HomeMatches(r[i], term, lower)
    ensures forall i :: 0 <= i < |visits| && HomeMatches(visits[i], term, lower) ==> visits[i] in r
    ensures term == "" ==> r == visits
  {
    var p := v => HomeMatches(v, term, lower);
    if term == "" then
      FilterAll(visits, p);
      Filter(visits, p)
    else Filter(visits, p)
  }
}

=== FILE: strings.dfy ===
/** The few string operations the views use, over `seq<char>`. */
module Strings {

  /** `s.startsWith(p)`. */
  predicate StartsWith(s: string, p: string) {
    p <= s
  }

  /** `s.includes(t)`: `t` occurs in `s` as a contiguous run. */
  predicate Includes(s: string, t: string) {
    exists k :: 0 <= k <= |s| && t <= s[k..]
  }

  /** The empty string occurs in every string, so an empty search term matches anything. */
  lemma IncludesEmpty(s: string)
    ensures Includes(s, "")
  {
    assert "" <= s[0..];
  }

  /** Every string includes itself. */
  lemma IncludesSelf(s: string)
    ensures Includes(s, s)
  {
    assert s <= s[0..];
  }

  /**
   Lexicographic `a <= b` on characters, the order the store applies to
   `yyyy-MM-dd` date strings (where it coincides with calendar order).
   */
  predicate LexLe(a: string, b: string)
    decreases |a|
  {
    |a| == 0 || (|b| > 0 && (a[0] < b[0] || (a[0] == b[0] && LexLe(a[1..], b[1..]))))
  }
}

=== FILE: tables.dfy ===
/**
 The two tables of the hosted store, as the front end sees them: `disponibilidad`
 (bookable tour slots) and `visitas` (reservations). Both rows are plain values;
 the store owns them and the application only holds copies.
 */
module Tables {

  /** A value that may be absent (a SQL NULL, a missing query parameter, no row selected). */
  datatype Option<+T> = None | Some(value: T)

  /** One row of `disponibilidad`: a (date, time, language) tour with a seat quota. */
  datatype Slot = Slot(
    id: int,
    fecha: string,
    hora: string,
    idioma: string,
    cuposTotales: int,
    cuposDisponibles: int,
    habilitado: bool)
  {
    /** Seats already taken on this slot. */
    function Booked(): int {
      cuposTotales - cuposDisponibles
    }
  }

  /** The table invariant every slot is meant to keep: `0 <= available <= total`. */
  predicate WellFormed(s: Slot) {
    0 <= s.cuposDisponibles <= s.cuposTotales
  }

  /** Every slot of a loaded list satisfies the table invariant. */
  predicate AllWellFormed(slots: seq<Slot>) {
    forall i :: 0 <= i < |slots| ==> WellFormed(slots[i])
  }

  /** Reservation status; only `Confirmada` is ever written by the application. */
  datatype Estado = Confirmada | Pendiente | Cancelada

  /** One row of `visitas`: a guest's booking, copied from a slot at creation time. */
  datatype Visit = Visit(
    id: int,
    fecha: string,
    hora: string,
    nombre: string,
    apellido: string,
    numeroHabitacion: string,
    hotel: string,
    idioma: string,
    estado: Estado,
    fechaCreacion: string,
    comentarios: Option<string>)

  // The store's answers, which the model takes as inputs.

  /** The answer to an insert: success, or an error with its Postgres code and message. */
  datatype InsertOutcome = Inserted | InsertFailed(code: string, message: string)

  /** Postgres `unique_violation`. */
  const UniqueViolation: string := "23505"

  /** The answer to an update or delete: a transport error, or the number of rows it touched. */
  datatype MutationOutcome = StoreError(message: string) | Affected(count: nat)
}
